=== FILE: README.md ===
# Recipe search: the ingestion script and the search endpoint, in Dafny

This project models the two programs of a small recipe-search application.

- **The import script** (`scripts/import-data.js`) makes sure the vector index `recipes` exists. It then takes the first 1600 rows of a recipe file and processes them in batches of 32. For each row it:
  - decodes the `tags`, `steps` and `ingredients` columns, which hold Python-style lists of quoted strings, with one regular expression;
  - builds a metadata record;
  - builds the list of text fragments to embed: the name, every list item, three phrasings of the cooking time, and the description;
  - asks the embedding service for one vector per fragment;
  - upserts one index entry per vector.

  A failing row makes its batch fail, and that stops the script.
- **The search endpoint** (`pages/api/generate.js`) checks the API key, checks the query, embeds the query, and asks the index for the five nearest entries. Every failure maps to an HTTP status and a body.

The services (the embedding API and the vector index) are not called. They are consulted through an `Env` value that says how each one answers. What a program does to the outside world is the list of calls it issues, in order, together with the error that stopped it or the response it sent.

Modules:

| file | module | what |
|---|---|---|
| wrappers.dfy | `Wrappers` | optional values and the outcome of a call that can fail |
| js.dfy | `Js` | JavaScript values (`undefined` or a string), truthiness, `String(v)`, `filter((v) => v)` |
| batching.dfy | `Batching` | `batchTask` and `Array.prototype.slice` |
| quoted_literals.dfy | `QuotedLiterals` | the regular expression `/(?:'+(.*?)'+\|"+(.*?)"+,?)/g`, its `exec` loop (`getMatches`), and the extraction of one column |
| list_literals.dfy | `ListLiterals` | what extraction returns for a list written by Python's `str`, including the items it loses |
| recipes.dfy | `Recipes` | rows, metadata, fragments and index entries |
| services.dfy | `Services` | the model name, the index name, and service errors |
| calls.dfy | `Calls` | the requests the import script sends, and how stretches of it compose |
| batch_loop.dfy | `BatchLoop` | the loop over batches, and `Promise.all` within a batch |
| ingestion.dfy | `Ingestion` | index provisioning and the whole import script |
| search.dfy | `Search` | the search handler |
| scenario.dfy | `Scenario` | one worked row, traced to its upsert |

## Model

| member | source | states |
|---|---|---|
| Js.FilterTruthy | scripts/import-data.js:129-131 | Filtering never lengthens the list and keeps no empty string. |
| Js.FilterTruthyKeeps | scripts/import-data.js:129-131 | A string is kept exactly when it is a non-empty member of the input. |
| Js.FilterTruthyAppend | scripts/import-data.js:157 | Filtering a concatenation is concatenating the filtered parts. |
| Js.FilterTruthyKeepsNonEmpty | scripts/import-data.js:157 | A list of non-empty strings passes the filter unchanged. |
| Js.FilterTruthyDropsFalsy | scripts/import-data.js:129-131 | A list of falsy values filters to nothing. |
| Batching.Slice | scripts/import-data.js:56 | Within bounds, `slice` is the subsequence between them. It is empty when the start is not before the end bound, or not inside the list. |
| Batching.CeilDivBounds | scripts/import-data.js:52 | `Math.ceil(n / k)` slices of `k` cover `n` items, and one fewer would not. |
| Batching.BatchTask | scripts/import-data.js:51-60 | For a positive length there are `ceil(|tasks| / taskLength)` batches; a non-positive length or an empty list gives none. |
| Batching.BatchSizes | scripts/import-data.js:51-60 | No batch is empty, none exceeds `taskLength`, and every batch but the last holds exactly `taskLength`. |
| Batching.BatchAt | scripts/import-data.js:55-57 | Batch `i` is the tasks from offset `i * taskLength` on, `taskLength` of them or the rest. |
| Batching.BatchPrefix | scripts/import-data.js:51-60 | The first `k` batches together are the first `k * taskLength` tasks. |
| Batching.BatchTaskFlatten | scripts/import-data.js:51-60 | The batches, concatenated in order, give back the task list. |
| QuotedLiterals.RunLength | scripts/import-data.js:128 | A greedy `q+` stops at the first character that is not `q`. |
| QuotedLiterals.RunLengthIsRun | scripts/import-data.js:128 | Every character a greedy `q+` takes is `q`. |
| QuotedLiterals.FindClose | scripts/import-data.js:128 | A lazy `(.*?)` followed by `q` stops at a `q`, after a stretch with no `q` and no line terminator. |
| QuotedLiterals.FindCloseFails | scripts/import-data.js:128 | The lazy group finds no closing quote exactly when no `q` follows a stretch free of `q` and line terminators. |
| QuotedLiterals.QuotedRun | scripts/import-data.js:128 | One quoted alternative matches at least two characters, and its capture holds no quote of its kind. |
| QuotedLiterals.MatchAt | scripts/import-data.js:128 | A match is at least two characters long. Group 1 is free of single quotes and line terminators, and is set only when the match starts with a single quote. |
| QuotedLiterals.Search | scripts/import-data.js:67 | A match `exec` returns from `lastIndex` lies inside the remaining text, and its group 1 is free of single quotes and line terminators. |
| QuotedLiterals.SearchQuote | scripts/import-data.js:67 | Group 1 of the match `exec` finds is set only if the text holds a single quote. |
| QuotedLiterals.SearchLeftmost | scripts/import-data.js:67 | `exec` returns the leftmost match: the expression matches at the returned offset and at no earlier one, and when `exec` fails it matches at no offset. |
| QuotedLiterals.Matches | scripts/import-data.js:67 | The `exec` loop. Its contract is stated by `QuotedLiterals.SearchLeftmost`, `QuotedLiterals.Group1Values`, `QuotedLiterals.GetMatches` and `ListLiterals.ItemsGroups`. |
| QuotedLiterals.Groups | scripts/import-data.js:68 | One group value per match. |
| QuotedLiterals.Group1Values | scripts/import-data.js:128-129 | Every group-1 value is `undefined` or free of single quotes. Without a single quote in the text, every one is `undefined`. |
| QuotedLiterals.GetMatches | scripts/import-data.js:62-71 | The `exec` loop collects group `index` of every match in order, and reads group 1 when the index is falsy. |
| QuotedLiterals.Extract | scripts/import-data.js:128-131 | Every extracted value is non-empty and free of single quotes and line terminators. |
| QuotedLiterals.NoSingleQuoteNoValues | scripts/import-data.js:128-131 | A column with no single quote yields no value. This covers an absent column read as "undefined", and a list of double-quoted items. |
| ListLiterals.SingleQuoted | scripts/import-data.js:128-129 | Every item kept holds no single quote and is one of the list's items. |
| ListLiterals.SkipChar | scripts/import-data.js:67 | The scan steps over a character that is not a quote. |
| ListLiterals.QuotedRunOfLiteral | scripts/import-data.js:128 | On the literal of an item, the quoted alternative captures the item and ends after the closing quote. |
| ListLiterals.LiteralThenRest | scripts/import-data.js:67-69 | The literal of an item is one match, and the scan resumes after it (and after a comma, for a double-quoted one). |
| ListLiterals.LiteralMatch | scripts/import-data.js:67-69 | The literal of an item contributes one group-1 value: the item if single-quoted, `undefined` if double-quoted. |
| ListLiterals.LastLiteral | scripts/import-data.js:67-69 | A literal at the end of the text is its only match. |
| ListLiterals.ItemsGroups | scripts/import-data.js:62-71 | Scanning the joined literals gives one group-1 value per item, in order. |
| ListLiterals.ExtractListRepr | scripts/import-data.js:128-131 | Decoding a written-out list gives exactly its items that hold no single quote, in order. Stated for items that are non-empty, printable ASCII, free of backslashes and not holding both kinds of quote (`Writable`). |
| ListLiterals.ExtractRoundTrip | scripts/import-data.js:128-131 | A list whose items hold no single quote decodes to itself. Stated for `Writable` items only, as above. |
| ListLiterals.EmptyItemQuirk | scripts/import-data.js:128-131 | An empty item is not read back, and neither is the item after it: for `['', y]` the two quotes of the empty item form one run, group 1 captures the separator ", ", and `y` is lost. |
| ListLiterals.EscapedQuoteQuirk | scripts/import-data.js:128-131 | An item holding both kinds of quote is not read back, and neither is the item after it. For `['a\'b"c"', y]`, group 1 stops at the escaped quote and keeps the backslash, and the double-quoted `c` has no group 1. The separator after the item is read as an item, and `y` is lost. |
| Recipes.RecipeMetadata | scripts/import-data.js:133-140 | The metadata's three lists hold only non-empty values free of single quotes. |
| Recipes.MetadataOfLists | scripts/import-data.js:126-140 | For list columns written by Python, the metadata holds each list's single-quote-free items in order, and the name, description and minutes as read. Stated for `Writable` items only. |
| Recipes.Fragments | scripts/import-data.js:142-157 | A row always yields at least three fragments, none of them empty. |
| Recipes.Queries | scripts/import-data.js:142-154 | `inputQueries`. Its contract is stated by `Recipes.FragmentsLayout`. |
| Recipes.Durations | scripts/import-data.js:147-149 | The three phrasings of the cooking time. Their contract is stated by `Recipes.FragmentsLayout` and `Scenario.SoupDurations`. |
| Recipes.FragmentsLayout | scripts/import-data.js:142-157 | The fragments are, in order: the name if truthy, the tags, steps and ingredients, the three duration phrasings, and the description if truthy. The duration phrasings are never empty, even for an absent `minutes`, which a template literal writes as "undefined" (`Js.ToString`). |
| Recipes.FragmentCount | scripts/import-data.js:142-157 | The fragment count is [name truthy] + \|tags\| + \|steps\| + \|ingredients\| + 3 + [description truthy]. |
| Recipes.Entries | scripts/import-data.js:160-168 | One entry per embedding, each with the row's id and metadata. |
| Recipes.EntriesValues | scripts/import-data.js:160-168 | Projecting the vectors out of the entries gives back the embeddings, in order. |
| Recipes.EntriesShareRecord | scripts/import-data.js:160-168 | Two entries of one upsert differ at most in their vectors. |
| Calls.Both | scripts/import-data.js:125 | Two stretches that both run fail exactly when either fails, and issue as many calls as the two together. The error is the first one present (`OrElse`); `BatchLoop.RunAllFirstError` states which for a whole batch. |
| Calls.BothAssociative | scripts/import-data.js:125 | Grouping does not matter when stretches are combined. |
| Calls.After | scripts/import-data.js:124 | A stretch run after another ends with the second one's error, and issues as many calls as the two together. |
| Calls.EmbeddedTextsAppend | scripts/import-data.js:156-158 | The texts embedded by consecutive calls are the texts of the first, then those of the second. |
| BatchLoop.RunAll | scripts/import-data.js:125 | `Promise.all` over one batch. Its contract is stated by `BatchLoop.RunAllFails`, `BatchLoop.RunAllFirstError` and `BatchLoop.RunAllAppend`. |
| BatchLoop.RunAllAppend | scripts/import-data.js:125 | Running two lists of rows is running their concatenation. |
| BatchLoop.RunAllFails | scripts/import-data.js:125 | `Promise.all` rejects exactly when one of its rows fails. |
| BatchLoop.RunAllFirstError | scripts/import-data.js:125 | A failing batch fails with the error of one of its rows, and no row before that one fails: the first failing row in batch order (`Calls.OrElse`). |
| BatchLoop.FirstFailure | scripts/import-data.js:124-125 | A first failing batch, when named, is a batch that fails. |
| BatchLoop.FirstFailureIsFirst | scripts/import-data.js:124-125 | No batch before the first failing one fails. |
| BatchLoop.RunBatches | scripts/import-data.js:124-172 | The loop over the batches. Its contract is stated by `BatchLoop.RunBatchesStops`. |
| BatchLoop.RunBatchesStops | scripts/import-data.js:124-172 | The loop issues the calls of every batch up to and including the first failing one, and ends with that batch's error. Without a failing batch it issues the calls of every row and succeeds. |
| BatchLoop.RunBatchesCompletes | scripts/import-data.js:124-172 | Without a failing batch, the loop issues the calls of every row and succeeds. |
| BatchLoop.RunBatchesAborts | scripts/import-data.js:124-172 | After failing batch `k`, no later batch issues a call. |
| BatchLoop.RunBatchesFails | scripts/import-data.js:124-172 | The loop fails exactly when some row fails. |
| BatchLoop.FlattenHas | scripts/import-data.js:122-124 | Every row of every batch is a row of the concatenation. |
| Ingestion.Provision | scripts/import-data.js:74-111 | Provisioning starts with `init`. When it succeeds the index exists. It adds `recipes` and nothing else, and only when `recipes` was absent. |
| Ingestion.ConfigFor | scripts/import-data.js:93-109 | The configuration of the new index. Its contract is stated by `Ingestion.ProvisionCreates`. |
| Ingestion.ProvisionCreates | scripts/import-data.js:82-111 | `createIndex` is called exactly when the client starts, the listing works, `recipes` is not listed, and the sample embedding yields a vector. It then uses that vector's length and the fields `name` and `description`. |
| Ingestion.ProvisionIdempotent | scripts/import-data.js:80-111 | Once provisioning succeeds, a second run creates nothing. It only starts the client, lists the indexes, and leaves them as they are. |
| Ingestion.ImportRecord | scripts/import-data.js:126-168 | A row first embeds all its fragments in one call. It upserts exactly when the embedding succeeds, and only a row that upserts can succeed. The upsert goes to `recipes` and holds the row's entries for the returned vectors; after it the row succeeds exactly when the upsert does. |
| Ingestion.UpsertPerFragment | scripts/import-data.js:133-168 | With one vector per fragment, the upsert to `recipes` holds one entry per fragment, carrying the returned vectors in order, each with the row's id and metadata. |
| Ingestion.RunRecords | scripts/import-data.js:125 | A batch fails exactly when one of its rows fails. The batch runs one step per row, in row order (`Ingestion.RecordSteps`). |
| Ingestion.EmbeddedTextsOfRecord | scripts/import-data.js:156-158 | A row asks for exactly one embedding: of its fragments. |
| Ingestion.RunRecordsEmbedsAll | scripts/import-data.js:125-158 | A batch embeds the fragments of every row, in row order, even when some row fails. |
| Ingestion.RecordStepsSlice | scripts/import-data.js:56 | The steps of a stretch of rows are that stretch of the steps. |
| Ingestion.StepBatchesCommute | scripts/import-data.js:122-125 | Batching the rows and then taking each batch's steps (`Ingestion.RecordSteps`) is batching the rows' steps. |
| Ingestion.RecipeRows | scripts/import-data.js:119 | The script works on the first `min(|rows|, 1600)` rows. |
| Ingestion.Import | scripts/import-data.js:73-173 | The script leaves the indexes as provisioning leaves them. A provisioning failure is the whole outcome. |
| Ingestion.ImportAll | scripts/import-data.js:117-172 | When nothing fails, the script provisions, then issues the calls of exactly the first `min(|rows|, 1600)` rows, in file order. |
| Ingestion.ImportAborts | scripts/import-data.js:117-172 | When batch `k` fails first, the script issues the calls of the rows of batches 0 to `k` only, and ends with that batch's error. |
| Ingestion.LoopAborts | scripts/import-data.js:122-172 | The loop over the batches of 32 stops after the first failing batch. |
| Ingestion.FirstBatchesSteps | scripts/import-data.js:122-124 | Batches 0 to `k` hold the rows before offset `32 * (k + 1)`. |
| Ingestion.ImportFails | scripts/import-data.js:73-173 | The script fails exactly when provisioning fails or one of the first 1600 rows fails. |
| Search.Trim | pages/api/generate.js:39 | `trim()`: the result neither starts nor ends with white space or a line terminator. `Search.TrimEmpty` states when it is empty. |
| Search.TrimStart | pages/api/generate.js:39 | Trimming the start leaves a suffix that starts with a kept character. |
| Search.TrimEnd | pages/api/generate.js:39 | Trimming the end leaves a prefix that ends with a kept character. |
| Search.TrimEmpty | pages/api/generate.js:39 | A query trims to nothing exactly when it is all white space and line terminators. |
| Search.QueryText | pages/api/generate.js:38 | A missing or empty query reads as "", and a non-empty one reads as its own text. |
| Search.ErrorResponse | pages/api/generate.js:78-90 | An error's body is forwarded exactly when the error carries a response. |
| Search.Lookup | pages/api/generate.js:60-77 | The index client is started first. The index is queried exactly when starting it works, and the second call is the query of `recipes` with `RequestFor` of the vector (`topK` 5, metadata included). |
| Search.Answer | pages/api/generate.js:48-91 | The try block starts by embedding the query alone. |
| Search.Handle | pages/api/generate.js:28-92 | The handler calls at most three services. |
| Search.HandleChecks | pages/api/generate.js:28-47 | An acceptable request goes on to the try block. Any other is answered without a call: 500 without a key, 400 otherwise. |
| Search.HandleNoKey | pages/api/generate.js:29-36 | 500 with the configuration message is sent exactly when the key is unset, whatever the query, and then no service is called. |
| Search.HandleInvalidQuery | pages/api/generate.js:38-46 | With a key, 400 "Please enter a valid query" is sent exactly when the query is missing or blank. No service is called exactly when the request is not acceptable. |
| Search.RequestFor | pages/api/generate.js:67-71 | The query sent to the index. Its contract is stated by `Search.HandleCalls`. |
| Search.HandleCalls | pages/api/generate.js:50-71 | An accepted query is embedded as `[query]`, and the index is asked for the first vector returned, with `topK: 5` and `includeMetadata: true`. |
| Search.HandleSucceeds | pages/api/generate.js:67-77 | Matches are sent exactly when the request is acceptable and every service answers. They are then the index's matches, unchanged, with 200. |
| Search.HandleAtMostFive | pages/api/generate.js:67-77 | If the index returns at most `topK` entries, a success holds at most five matches. |
| Search.FirstError | pages/api/generate.js:50-71 | Without a service error, and with a vector returned, every service answers. |
| Search.HandleForwards | pages/api/generate.js:78-82 | An error that carries a response is forwarded with its own status and body, and a forwarded body comes from no other source. |
| Search.HandleGenericError | pages/api/generate.js:83-90 | 500 with the generic message is sent exactly when the first failing service raised an error without a response, or the embedding service returned no vector. |
| Scenario.PairLiterals | scripts/import-data.js:128-131 | Two single-quoted items joined by a bare comma decode to the two items. |
| Scenario.SoupMetadata | scripts/import-data.js:126-140 | The worked row's metadata holds its two tags, two steps and two ingredients. |
| Scenario.SoupDurations | scripts/import-data.js:147-149 | For 30 minutes the three phrasings are "done in 30 minutes", "time taken 30 minutes" and "30 minutes" (`Js.ToString` writes the string as itself). |
| Scenario.SoupFragments | scripts/import-data.js:142-157 | The worked row yields eleven fragments, in the stated order. |
| Scenario.SoupUpsert | scripts/import-data.js:156-168 | The worked row is upserted as eleven entries, all with id "1" and the row's metadata. |

Three consequences of the code are worth spelling out:

- **Double-quoted items are lost.** Only capture group 1 is read. An item that Python writes in double quotes (one holding a single quote, such as `"don't stir"`) yields `undefined` and is filtered out (`ListLiterals.ExtractListRepr`).
- **A falsy name yields no fragment.** The name is filtered like any other fragment (`Recipes.FragmentCount`).
- **The worked row gives eleven fragments.** A row with a name, two tags, two steps, two ingredients and a description yields eleven fragments: the three duration phrasings are always there (`Scenario.SoupFragments`).

## Left out

- Reading the CSV file (`scripts/import-data.js:21-36`) is file input through a library. The rows are an input sequence of `RawRecord`.
- The embedding and index clients are network services. Each is an oracle in `Env`:
  - `getEmbeddings` is one `CreateEmbedding` call, answered by `embed`. No length preservation is assumed: the model carries whatever the oracle returns, and `Ingestion.UpsertPerFragment` states its promise under the assumption that one vector comes back per fragment.
  - `pinecone.init`, `listIndexes`, `createIndex`, `upsert` and `query` are each one call, answered by a fault or a result.
  - A failure that would surface while reading a response is folded into the call's error.
- The index is only as the script sees it: the names listed, and the configuration each was created with. Upserted entries are recorded in the trace of calls, not stored. Similarity search, and what an upsert of entries sharing one id does, belong to the service and are not modelled.
- Vectors are sequences of reals that are only carried, never inspected. Floating point is not modelled.
- Concurrency within a batch: `Promise.all` starts every row of a batch. The model runs the rows of a batch in order and reports the first failing row's error, in batch order. Which row's rejection arrives first is a matter of timing and is not modelled. The model serialises the rows of a batch: each row's upsert follows its own embedding request, whereas in the source the `map` at line 125 runs every row up to its first `await`, so all embedding requests of a batch go out before any upsert. The order of calls within a batch is therefore not modelled; what is modelled is the set of calls issued when every row of the batch finishes. In the source nothing catches the rejection (the async function at line 73 has no `catch`), so the process may end while other rows of that batch still wait: only their embedding requests are certain to have been sent, and a pending upsert may never go out.
- `createIndex` readiness: the script upserts right after creating the index. Any delay before the index accepts writes is the service's concern, and would show as an upsert fault.
- `Batching.BatchTask` excludes one input with its precondition: a zero `taskLength` with a non-empty list, on which the source's loop never ends. The script always passes 32.
- ListLiterals.ExtractListRepr, ListLiterals.ExtractRoundTrip, Recipes.MetadataOfLists: stated only for `Writable` items (non-empty, printable ASCII, no backslash, not both kinds of quote). An empty item breaks the decoding (`ListLiterals.EmptyItemQuirk`). A backslash comes back doubled. An item holding both kinds of quote, which `repr` writes with `\'`, is cut at that escape, the separator after it is read as an item, and the next item is lost (`ListLiterals.EscapedQuoteQuirk`). Printable non-ASCII characters, which `repr` also writes as they are, are left out.
- Batching.BatchTask: the default arguments (`tasks = []`, `taskLength = 500`, line 51) are not modelled. The only call passes both.
- `QuotedLiterals.GetMatches` models the group index as an integer, with 0 standing for every falsy index (`undefined`, `0`, `NaN`, `""`).
- The search handler sees `req.body.query` as a string or `undefined`. A non-string query (a number, an object) would make `trim` behave differently or throw, and is not modelled. A missing `req.body`, which makes the handler throw before its try block, is also not modelled.
- Search.HandleAtMostFive: at most five matches is the index's promise, not the handler's, so the lemma assumes the index returns at most `topK` entries.
- Logging (`console.log`, `console.error`), `dotenv` and the reading of environment variables are left out. The API key is a parameter of the handler.
- `pages/index.js` is the browser page that calls the endpoint. It is not part of this model.

=== FILE: batch_loop.dfy ===
/** The batch loop of scripts/import-data.js (lines 124-172), over the
    steps of the rows: within a batch every row runs (`Promise.all` starts
    them all and cancels none), and the batches run one after the other
    until one fails. */
module BatchLoop {
  import opened Wrappers
  import opened Batching
  import opened Calls

  /** One batch: every step runs; the batch fails with the first failing
      step's error, in batch order. */
  function RunAll(steps: seq<Step>): (s: Step)
    decreases |steps|
  {
    if |steps| == 0 then Step([], None) else Both(steps[0], RunAll(steps[1..]))
  }

  /** Running two lists of steps one after the other is running their
      concatenation. */
  lemma {:induction false} RunAllAppend(a: seq<Step>, b: seq<Step>)
    ensures RunAll(a + b) == Both(RunAll(a), RunAll(b))
    decreases |a|
  {
    if |a| == 0 {
      assert a + b == b;
      BothNone(RunAll(b));
    } else {
      ConsAppend(a, b);
      RunAllAppend(a[1..], b);
      BothAssociative(a[0], RunAll(a[1..]), RunAll(b));
    }
  }

  /** A failing step makes its batch fail. */
  lemma {:induction false} RunAllFailsAt(steps: seq<Step>, i: nat)
    requires i < |steps| && steps[i].error.Some?
    ensures RunAll(steps).error.Some?
    decreases i
  {
    if i > 0 {
      assert steps[1..][i - 1] == steps[i];
      RunAllFailsAt(steps[1..], i - 1);
    }
  }

  /** A failing batch has a failing step. */
  lemma {:induction false} RunAllFailure(steps: seq<Step>) returns (i: nat)
    requires RunAll(steps).error.Some?
    ensures i < |steps| && steps[i].error.Some?
    decreases |steps|
  {
    if steps[0].error.Some? {
      i := 0;
    } else {
      var j := RunAllFailure(steps[1..]);
      i := j + 1;
    }
  }

  /** A batch fails exactly when one of its steps fails. */
  lemma RunAllFails(steps: seq<Step>)
    ensures RunAll(steps).error.Some? <==> exists i :: 0 <= i < |steps| && steps[i].error.Some?
  {
    if RunAll(steps).error.Some? {
      var i := RunAllFailure(steps);
    }
    forall i | 0 <= i < |steps| && steps[i].error.Some?
      ensures RunAll(steps).error.Some?
    {
      RunAllFailsAt(steps, i);
    }
  }

  /** The error of a failing batch is the error of its first failing
      step, in batch order: the step at some position `i` fails with that
      error, and no step before `i` fails. */
  lemma {:induction false} RunAllFirstError(steps: seq<Step>)
    ensures RunAll(steps).error.Some? ==>
              exists i :: 0 <= i < |steps| && RunAll(steps).error == steps[i].error
                          && forall j :: 0 <= j < i ==> steps[j].error.None?
    decreases |steps|
  {
    if |steps| > 0 && RunAll(steps).error.Some? && steps[0].error.None? {
      var rest := steps[1..];
      RunAllFirstError(rest);
      var i :| 0 <= i < |rest| && RunAll(rest).error == rest[i].error
               && forall j :: 0 <= j < i ==> rest[j].error.None?;
      assert RunAll(steps).error == steps[i + 1].error;
      assert forall j :: 1 <= j < i + 1 ==> steps[j] == rest[j - 1];
    }
  }

  /** The batches one after the other, each finished before the next
      starts; a failing batch ends the loop. */
  function RunBatches(batches: seq<seq<Step>>): (s: Step)
    decreases |batches|
  {
    if |batches| == 0 then Step([], None)
    else
      var first := RunAll(batches[0]);
      if first.error.Some? then first else After(first, RunBatches(batches[1..]))
  }

  /** The first failing batch, if any. */
  function FirstFailure(batches: seq<seq<Step>>): (k: Option<nat>)
    ensures k.Some? ==> k.value < |batches| && RunAll(batches[k.value]).error.Some?
    decreases |batches|
  {
    if |batches| == 0 then None
    else if RunAll(batches[0]).error.Some? then Some(0)
    else Later(FirstFailure(batches[1..]))
  }

  /** A position one further on. */
  function Later(k: Option<nat>): (r: Option<nat>) {
    if k.None? then None else Some(k.value + 1)
  }

  /** No batch before the first failing one fails, and without a failing
      batch none fails at all. */
  lemma {:induction false} FirstFailureIsFirst(batches: seq<seq<Step>>, j: nat)
    requires j < |batches|
    requires FirstFailure(batches).None? || j < FirstFailure(batches).value
    ensures RunAll(batches[j]).error.None?
    decreases |batches|
  {
    if j > 0 {
      assert RunAll(batches[0]).error.None?;
      assert batches[1..][j - 1] == batches[j];
      FirstFailureIsFirst(batches[1..], j - 1);
    }
  }

  lemma FirstFailureNone(batches: seq<seq<Step>>)
    requires FirstFailure(batches).None?
    ensures forall j :: 0 <= j < |batches| ==> RunAll(batches[j]).error.None?
  {
    forall j | 0 <= j < |batches|
      ensures RunAll(batches[j]).error.None?
    {
      FirstFailureIsFirst(batches, j);
    }
  }

  /** Batches none of which fails make a list of steps none of which
      fails. */
  lemma {:induction false} RunAllFlattenSucceeds(batches: seq<seq<Step>>)
    requires forall j :: 0 <= j < |batches| ==> RunAll(batches[j]).error.None?
    ensures RunAll(Flatten(batches)).error.None?
    decreases |batches|
  {
    if |batches| > 0 {
      assert RunAll(batches[0]).error.None?;
      RunAllFlattenSucceeds(batches[1..]);
      RunAllAppend(batches[0], Flatten(batches[1..]));
    }
  }

  lemma FlattenCons(batches: seq<seq<Step>>, k: nat)
    requires k < |batches|
    ensures Flatten(batches[..k + 1]) == batches[0] + Flatten(batches[1..][..k])
  {
    assert batches[..k + 1][1..] == batches[1..][..k];
  }

  /** The loop issues exactly the calls of the steps of every batch up to
      and including the first failing one, and stops with that batch's
      error; without a failing batch it issues the calls of all steps and
      succeeds. */
  lemma {:induction false} RunBatchesStops(batches: seq<seq<Step>>)
    ensures FirstFailure(batches).None? ==>
              RunBatches(batches) == Step(RunAll(Flatten(batches)).calls, None)
    ensures FirstFailure(batches).Some? ==>
              var k := FirstFailure(batches).value;
              RunBatches(batches) == Step(RunAll(Flatten(batches[..k + 1])).calls, RunAll(batches[k]).error)
    decreases |batches|
  {
    if |batches| > 0 {
      var first := RunAll(batches[0]);
      RunAllAppend(batches[0], Flatten(batches[1..]));
      if first.error.Some? {
        FlattenCons(batches, 0);
        assert batches[1..][..0] == [];
        assert batches[0] + [] == batches[0];
      } else {
        RunBatchesStops(batches[1..]);
        match FirstFailure(batches[1..])
        case None =>
          FirstFailureNone(batches[1..]);
          RunAllFlattenSucceeds(batches[1..]);
        case Some(k) =>
          FlattenCons(batches, k + 1);
          RunAllAppend(batches[0], Flatten(batches[1..][..k + 1]));
      }
    }
  }

  /** Without a failing batch, the loop issues the calls of every step. */
  lemma RunBatchesCompletes(batches: seq<seq<Step>>)
    requires FirstFailure(batches).None?
    ensures RunBatches(batches) == Step(RunAll(Flatten(batches)).calls, None)
  {
    RunBatchesStops(batches);
  }

  /** When batch `k` is the first to fail, the loop issues the calls of the
      steps of batches 0 to `k` only, and stops with batch `k`'s error. */
  lemma RunBatchesAborts(batches: seq<seq<Step>>, k: nat)
    requires FirstFailure(batches) == Some(k)
    ensures RunBatches(batches) == Step(RunAll(Flatten(batches[..k + 1])).calls, RunAll(batches[k]).error)
  {
    RunBatchesStops(batches);
  }

  /** The loop fails exactly when one of the steps fails. */
  lemma RunBatchesFails(batches: seq<seq<Step>>)
    ensures RunBatches(batches).error.Some? <==> RunAll(Flatten(batches)).error.Some?
  {
    RunBatchesStops(batches);
    if FirstFailure(batches).None? {
      FirstFailureNone(batches);
      RunAllFlattenSucceeds(batches);
    } else {
      var k := FirstFailure(batches).value;
      var i := RunAllFailure(batches[k]);
      var j := FlattenHas(batches, k, i);
      RunAllFails(Flatten(batches));
    }
  }

  /** Step `i` of batch `k` is a step of the concatenation. */
  lemma {:induction false} FlattenHas(batches: seq<seq<Step>>, k: nat, i: nat) returns (j: nat)
    requires k < |batches| && i < |batches[k]|
    ensures j < |Flatten(batches)| && Flatten(batches)[j] == batches[k][i]
    decreases k
  {
    if k == 0 {
      j := i;
    } else {
      var j' := FlattenHas(batches[1..], k - 1, i);
      j := |batches[0]| + j';
    }
  }
}

=== FILE: batching.dfy ===
/** `batchTask` of scripts/import-data.js: splitting a task list into
    consecutive slices of a fixed length. */
module Batching {

  /** The smaller of two numbers. */
  function Min(a: int, b: int): (m: int) {
    if a <= b then a else b
  }

  /** `Array.prototype.slice(start, end)` for non-negative bounds: both
      bounds are clamped to the length, and a start past the end gives []. */
  function Slice<T>(s: seq<T>, start: nat, end: nat): (r: seq<T>)
    ensures start <= end <= |s| ==> r == s[start..end]
    ensures end <= start || |s| <= start ==> r == []
  {
    var lo := Min(start, |s|);
    var hi := Min(end, |s|);
    if lo <= hi then s[lo..hi] else []
  }

  /** `Math.ceil(a / b)` for a positive divisor. */
  function CeilDiv(a: nat, b: nat): (q: nat)
    requires b > 0
  {
    (a + b - 1) / b
  }

  /** `CeilDiv(a, b)` is the least count of `b`-sized slices that covers `a`. */
  lemma CeilDivBounds(a: nat, b: nat)
    requires b > 0
    ensures CeilDiv(a, b) * b >= a
    ensures CeilDiv(a, b) > 0 ==> (CeilDiv(a, b) - 1) * b < a
  {
  }

  /** The slices of `tasks` of `taskLength` items each, in order. A negative
      length makes `Math.ceil` non-positive, so no slice is produced; a zero
      length with a non-empty list makes the source loop forever, which is
      the one input excluded here. */
  function BatchTask<T>(tasks: seq<T>, taskLength: int): (batches: seq<seq<T>>)
    requires taskLength != 0 || |tasks| == 0
    ensures taskLength > 0 ==> |batches| == CeilDiv(|tasks|, taskLength)
    ensures taskLength <= 0 || |tasks| == 0 ==> batches == []
  {
    if taskLength <= 0 then []
    else
      seq(CeilDiv(|tasks|, taskLength),
          i requires 0 <= i => Slice(tasks, i * taskLength, (i + 1) * taskLength))
  }

  /** The concatenation of a sequence of sequences. */
  function Flatten<T>(ss: seq<seq<T>>): (r: seq<T>)
    decreases |ss|
  {
    if |ss| == 0 then [] else ss[0] + Flatten(ss[1..])
  }

  lemma {:induction false} FlattenAppend<T>(a: seq<seq<T>>, b: seq<seq<T>>)
    ensures Flatten(a + b) == Flatten(a) + Flatten(b)
    decreases |a|
  {
    if |a| == 0 {
      assert a + b == b;
    } else {
      assert (a + b)[1..] == a[1..] + b;
      FlattenAppend(a[1..], b);
    }
  }

  lemma MulStep(i: nat, n: nat)
    ensures (i + 1) * n == i * n + n
  {
  }

  lemma MulMono(i: nat, j: nat, n: nat)
    requires i <= j
    ensures i * n <= j * n
  {
  }

  /** A slice before the last `q`-th starts inside the list, and one
      before the last also ends inside it. */
  lemma SliceStart(i: nat, q: nat, n: nat, len: nat)
    requires i < q && (q - 1) * n < len
    ensures i * n < len
    ensures i < q - 1 ==> i * n + n <= len
  {
    MulMono(i, q - 1, n);
    if i < q - 1 {
      MulStep(i, n);
      MulMono(i + 1, q - 1, n);
    }
  }

  /** Slice `i` is non-empty, holds at most `taskLength` items, and exactly
      that many unless it is the last. */
  lemma BatchSize<T>(tasks: seq<T>, taskLength: int, i: nat)
    requires taskLength > 0
    requires i < |BatchTask(tasks, taskLength)|
    ensures var batches := BatchTask(tasks, taskLength);
            0 < |batches[i]| <= taskLength &&
            (i < |batches| - 1 ==> |batches[i]| == taskLength)
  {
    var q := CeilDiv(|tasks|, taskLength);
    var start := i * taskLength;
    CeilDivBounds(|tasks|, taskLength);
    SliceStart(i, q, taskLength, |tasks|);
    BatchAt(tasks, taskLength, i, start);
    assert |BatchTask(tasks, taskLength)[i]| == Min(start + taskLength, |tasks|) - start;
  }

  /** Every slice except possibly the last holds exactly `taskLength` items,
      the last holds at most that many, and none is empty. */
  lemma BatchSizes<T>(tasks: seq<T>, taskLength: int)
    requires taskLength > 0
    ensures var batches := BatchTask(tasks, taskLength);
            forall i :: 0 <= i < |batches| ==>
              0 < |batches[i]| <= taskLength &&
              (i < |batches| - 1 ==> |batches[i]| == taskLength)
  {
    var batches := BatchTask(tasks, taskLength);
    forall i | 0 <= i < |batches|
      ensures 0 < |batches[i]| <= taskLength
      ensures i < |batches| - 1 ==> |batches[i]| == taskLength
    {
      BatchSize(tasks, taskLength, i);
    }
  }

  /** Slice `i` is the tasks from offset `start == i * taskLength` on,
      `taskLength` of them or fewer at the end. */
  lemma BatchAt<T>(tasks: seq<T>, taskLength: int, i: nat, start: nat)
    requires taskLength > 0
    requires i < |BatchTask(tasks, taskLength)|
    requires start == i * taskLength
    ensures BatchTask(tasks, taskLength)[i]
            == tasks[Min(start, |tasks|)..Min(start + taskLength, |tasks|)]
  {
    MulStep(i, taskLength);
  }

  lemma SplitPrefix<T>(s: seq<T>, lo: nat, hi: nat)
    requires lo <= hi <= |s|
    ensures s[..lo] + s[lo..hi] == s[..hi]
  {
  }

  /** Taking one more slice appends it to the concatenation. */
  lemma FlattenSnoc<T>(ss: seq<seq<T>>, k: nat)
    requires 0 < k <= |ss|
    ensures Flatten(ss[..k]) == Flatten(ss[..k - 1]) + ss[k - 1]
  {
    assert ss[..k] == ss[..k - 1] + [ss[k - 1]];
    FlattenAppend(ss[..k - 1], [ss[k - 1]]);
    assert Flatten([ss[k - 1]]) == ss[k - 1];
  }

  /** The first `k` slices concatenate to the tasks before offset
      `end == k * taskLength`. */
  lemma {:induction false} BatchPrefix<T>(tasks: seq<T>, taskLength: int, k: nat, end: nat)
    requires taskLength > 0
    requires k <= |BatchTask(tasks, taskLength)|
    requires end == k * taskLength
    ensures Flatten(BatchTask(tasks, taskLength)[..k]) == tasks[..Min(end, |tasks|)]
    decreases k
  {
    var batches := BatchTask(tasks, taskLength);
    if k == 0 {
      assert batches[..0] == [];
    } else {
      var start := end - taskLength;
      MulStep(k - 1, taskLength);
      BatchPrefix(tasks, taskLength, k - 1, start);
      FlattenSnoc(batches, k);
      BatchAt(tasks, taskLength, k - 1, start);
      SplitPrefix(tasks, Min(start, |tasks|), Min(end, |tasks|));
    }
  }

  /** Concatenating the slices in order gives back the task list. */
  lemma BatchTaskFlatten<T>(tasks: seq<T>, taskLength: int)
    requires taskLength > 0
    ensures Flatten(BatchTask(tasks, taskLength)) == tasks
  {
    var batches := BatchTask(tasks, taskLength);
    BatchPrefix(tasks, taskLength, |batches|, |batches| * taskLength);
    CeilDivBounds(|tasks|, taskLength);
    assert batches[..|batches|] == batches;
  }
}

=== FILE: calls.dfy ===
/** The requests the import script sends to the services, and the outcome
    of a stretch of the script: the calls it issued, in order, and the
    error that ended it, if any. */
module Calls {
  import opened Wrappers
  import opened Services
  import opened Recipes

  /** What an index is created with. */
  datatype IndexConfig = IndexConfig(dimension: nat, indexed: seq<string>)

  /** One request to a service. */
  datatype Call =
    | Init
    | ListIndexes
    | CreateEmbedding(model: string, input: seq<string>)
    | CreateIndex(name: string, config: IndexConfig)
    | Upsert(index: string, vectors: seq<IndexEntry>)

  /** Why the script stops: a service error, or a sample embedding call
      that returned no vector (reading `embeddings[0].length` then throws). */
  datatype ImportError = Upstream(cause: UpstreamError) | MissingEmbedding

  /** The calls a stretch of the script issued and the error that ended
      it, if any. */
  datatype Step = Step(calls: seq<Call>, error: Option<ImportError>)

  /** The first of two errors, in order. */
  function OrElse(a: Option<ImportError>, b: Option<ImportError>): (r: Option<ImportError>) {
    if a.Some? then a else b
  }

  /** Two stretches that both run whatever happens in the other: all their
      calls, and the first error. */
  function Both(first: Step, second: Step): (s: Step)
    ensures s.error.Some? <==> first.error.Some? || second.error.Some?
    ensures |s.calls| == |first.calls| + |second.calls|
  {
    Step(first.calls + second.calls, OrElse(first.error, second.error))
  }

  lemma BothAssociative(a: Step, b: Step, c: Step)
    ensures Both(a, Both(b, c)) == Both(Both(a, b), c)
  {
    assert a.calls + (b.calls + c.calls) == (a.calls + b.calls) + c.calls;
  }

  lemma BothNone(a: Step)
    ensures Both(Step([], None), a) == a
  {
    assert [] + a.calls == a.calls;
  }

  /** A stretch that succeeded followed by another: all their calls, and
      the second one's outcome. */
  function After(first: Step, second: Step): (s: Step)
    ensures s.error == second.error
    ensures |s.calls| == |first.calls| + |second.calls|
  {
    Step(first.calls + second.calls, second.error)
  }

  /** The texts a list of calls asks to embed, in order. */
  function EmbeddedTexts(calls: seq<Call>): (texts: seq<seq<string>>)
    ensures |texts| <= |calls|
    decreases |calls|
  {
    if |calls| == 0 then [] else TextsOf(calls[0]) + EmbeddedTexts(calls[1..])
  }

  function TextsOf(c: Call): (texts: seq<seq<string>>) {
    if c.CreateEmbedding? then [c.input] else []
  }

  lemma ConsAppend<T>(a: seq<T>, b: seq<T>)
    requires |a| > 0
    ensures (a + b)[0] == a[0] && (a + b)[1..] == a[1..] + b
  {
  }

  lemma {:induction false} EmbeddedTextsAppend(a: seq<Call>, b: seq<Call>)
    ensures EmbeddedTexts(a + b) == EmbeddedTexts(a) + EmbeddedTexts(b)
    decreases |a|
  {
    if |a| == 0 {
      assert a + b == b;
    } else {
      ConsAppend(a, b);
      EmbeddedTextsAppend(a[1..], b);
    }
  }
}

=== FILE: ingestion.dfy ===
/** The import script of scripts/import-data.js (lines 73-173): make sure
    the index exists, then embed and upsert the first 1600 recipe rows,
    32 rows at a time.

    The services are not called but consulted: an `Env` says how each of
    them answers. What the script does to the outside world is the list of
    calls it issues, in order. */
module Ingestion {
  import opened Wrappers
  import opened Js
  import opened Services
  import opened Recipes
  import opened Batching
  import opened Calls
  import opened BatchLoop

  /** The two texts embedded to learn the vector length of the model. */
  const SampleDocuments: seq<string> :=
    ["Sample document text goes here", "there will be several phrases in each batch"]

  /** The metadata fields the index is told to make filterable. */
  const IndexedFields: seq<string> := ["name", "description"]

  /** How many rows of the file are imported. */
  const RecipeLimit: nat := 1600

  /** How many rows are processed together. */
  const BatchSize: nat := 32

  /** How the services answer. `embed` is the embedding service (its
      vectors, or an error); `upsertFault` says whether an upsert of these
      entries fails; the other three say whether that one call fails. */
  datatype Env = Env(
    initFault: Option<UpstreamError>,
    listFault: Option<UpstreamError>,
    embed: seq<string> -> Result<seq<Vector>, UpstreamError>,
    createFault: Option<UpstreamError>,
    upsertFault: seq<IndexEntry> -> Option<UpstreamError>)

  /** The indexes after a run, the calls it issued, and the error that
      stopped it, if any. */
  datatype Run = Run(indexes: map<string, IndexConfig>, calls: seq<Call>, error: Option<ImportError>)

  /** The configuration the script creates the index with, given the
      vectors of the sample texts. */
  function ConfigFor(sample: seq<Vector>): (config: IndexConfig)
    requires |sample| > 0
  {
    IndexConfig(|sample[0]|, IndexedFields)
  }

  /** Lines 74-111: initialise the client, list the indexes, and create
      `recipes` only if it is not listed, with the length of the first
      sample vector as its dimension. */
  function Provision(indexes: map<string, IndexConfig>, env: Env): (p: Run)
    ensures |p.calls| >= 1 && p.calls[0] == Init
    ensures p.error.None? ==> IndexName in p.indexes
    ensures p.indexes == indexes
            || (IndexName !in indexes && IndexName in p.indexes
                && p.indexes == indexes[IndexName := p.indexes[IndexName]])
  {
    if env.initFault.Some? then
      Run(indexes, [Init], Some(Upstream(env.initFault.value)))
    else if env.listFault.Some? then
      Run(indexes, [Init, ListIndexes], Some(Upstream(env.listFault.value)))
    else if IndexName in indexes then
      Run(indexes, [Init, ListIndexes], None)
    else
      var sampleCall := CreateEmbedding(EmbeddingModel, SampleDocuments);
      match env.embed(SampleDocuments)
      case Err(e) => Run(indexes, [Init, ListIndexes, sampleCall], Some(Upstream(e)))
      case Ok(sample) =>
        if |sample| == 0 then
          Run(indexes, [Init, ListIndexes, sampleCall], Some(MissingEmbedding))
        else
          var config := ConfigFor(sample);
          var calls := [Init, ListIndexes, sampleCall, CreateIndex(IndexName, config)];
          if env.createFault.Some? then Run(indexes, calls, Some(Upstream(env.createFault.value)))
          else Run(indexes[IndexName := config], calls, None)
  }

  /** The calls create an index. */
  predicate CreatesIndex(calls: seq<Call>) {
    exists i :: 0 <= i < |calls| && calls[i].CreateIndex?
  }

  /** The index is created exactly when the client starts, the listing
      works, `recipes` is not listed, and the sample embedding yields a
      vector; it is then created under that name, with that vector's
      length and the fixed indexed fields. */
  lemma ProvisionCreates(indexes: map<string, IndexConfig>, env: Env)
    ensures CreatesIndex(Provision(indexes, env).calls)
            <==> && env.initFault.None? && env.listFault.None?
                 && IndexName !in indexes
                 && env.embed(SampleDocuments).Ok? && |env.embed(SampleDocuments).value| > 0
    ensures var calls := Provision(indexes, env).calls;
            forall i :: 0 <= i < |calls| && calls[i].CreateIndex? ==>
              calls[i] == CreateIndex(IndexName, ConfigFor(env.embed(SampleDocuments).value))
  {
    var calls := Provision(indexes, env).calls;
    if CreatesIndex(calls) {
      var i :| 0 <= i < |calls| && calls[i].CreateIndex?;
    }
    if |calls| == 4 {
      assert calls[3].CreateIndex?;
    }
  }

  /** Provisioning twice creates nothing the second time: once the index
      exists, a second run only starts the client and lists the indexes,
      and leaves the indexes as they are. */
  lemma ProvisionIdempotent(indexes: map<string, IndexConfig>, env: Env, env': Env)
    requires Provision(indexes, env).error.None?
    requires env'.initFault.None? && env'.listFault.None?
    ensures var p := Provision(indexes, env);
            Provision(p.indexes, env') == Run(p.indexes, [Init, ListIndexes], None)
  {
  }

  /** Lines 126-168 for one row: embed its fragments in one call, then
      upsert one entry per returned vector in one call. */
  function ImportRecord(r: RawRecord, env: Env): (s: Step)
    ensures 1 <= |s.calls| <= 2
    ensures s.calls[0] == CreateEmbedding(EmbeddingModel, Fragments(r))
    ensures |s.calls| == 2 <==> env.embed(Fragments(r)).Ok?
    ensures s.error.None? ==> |s.calls| == 2
    ensures |s.calls| == 2 ==>
              s.calls[1] == Upsert(IndexName, RecordEntries(r, env.embed(Fragments(r)).value))
    ensures |s.calls| == 2 ==>
              (s.error.None? <==> env.upsertFault(RecordEntries(r, env.embed(Fragments(r)).value)).None?)
  {
    var fragments := Fragments(r);
    var embedCall := CreateEmbedding(EmbeddingModel, fragments);
    match env.embed(fragments)
    case Err(e) => Step([embedCall], Some(Upstream(e)))
    case Ok(embeddings) =>
      var entries := RecordEntries(r, embeddings);
      var error := if env.upsertFault(entries).Some? then Some(Upstream(env.upsertFault(entries).value)) else None;
      Step([embedCall, Upsert(IndexName, entries)], error)
  }

  /** When the embedding service returns one vector per fragment, the
      upsert of a row holds exactly one entry per fragment, whose vectors
      are the returned ones in fragment order, and every entry carries
      the row's id and metadata. */
  lemma UpsertPerFragment(r: RawRecord, env: Env)
    requires env.embed(Fragments(r)).Ok?
    requires |env.embed(Fragments(r)).value| == |Fragments(r)|
    ensures var s := ImportRecord(r, env);
            var m := RecipeMetadata(r);
            && s.calls[1].Upsert?
            && s.calls[1].index == IndexName
            && |s.calls[1].vectors|
               == |Present(r.name)| + |m.tags| + |m.steps| + |m.ingredients|
                  + 3 + |Present(r.description)|
            && ValuesOf(s.calls[1].vectors) == env.embed(Fragments(r)).value
            && (forall i :: 0 <= i < |s.calls[1].vectors| ==>
                  s.calls[1].vectors[i].id == r.id && s.calls[1].vectors[i].metadata == m)
  {
    FragmentCount(r);
    EntriesValues(r.id, RecipeMetadata(r), env.embed(Fragments(r)).value);
  }

  /** The steps of a list of rows, one per row. */
  function RecordSteps(rs: seq<RawRecord>, env: Env): (steps: seq<Step>) {
    seq(|rs|, i requires 0 <= i < |rs| => ImportRecord(rs[i], env))
  }

  lemma RecordStepsAt(rs: seq<RawRecord>, env: Env)
    ensures |RecordSteps(rs, env)| == |rs|
    ensures forall i :: 0 <= i < |rs| ==> RecordSteps(rs, env)[i] == ImportRecord(rs[i], env)
  {
  }

  /** Line 125: one batch of rows, all started together. */
  function RunRecords(rs: seq<RawRecord>, env: Env): (s: Step)
    ensures s.error.Some? <==> exists i :: 0 <= i < |rs| && ImportRecord(rs[i], env).error.Some?
  {
    RecordStepsAt(rs, env);
    RunAllFails(RecordSteps(rs, env));
    RunAll(RecordSteps(rs, env))
  }

  lemma EmbeddedTextsOfRecord(r: RawRecord, env: Env)
    ensures EmbeddedTexts(ImportRecord(r, env).calls) == [Fragments(r)]
  {
    var calls := ImportRecord(r, env).calls;
    if |calls| == 2 {
      assert calls[1..][1..] == [];
    } else {
      assert calls[1..] == [];
    }
  }

  /** The fragments of every row, in order. */
  function AllFragments(rs: seq<RawRecord>): (fs: seq<seq<string>>)
    ensures |fs| == |rs|
    decreases |rs|
  {
    if |rs| == 0 then [] else [Fragments(rs[0])] + AllFragments(rs[1..])
  }

  /** A batch embeds the fragments of every one of its rows, in row order,
      whether or not some row fails. */
  lemma {:induction false} RunRecordsEmbedsAll(rs: seq<RawRecord>, env: Env)
    ensures EmbeddedTexts(RunRecords(rs, env).calls) == AllFragments(rs)
    decreases |rs|
  {
    if |rs| > 0 {
      var steps := RecordSteps(rs, env);
      assert steps[1..] == RecordSteps(rs[1..], env);
      RunRecordsEmbedsAll(rs[1..], env);
      EmbeddedTextsAppend(ImportRecord(rs[0], env).calls, RunRecords(rs[1..], env).calls);
      EmbeddedTextsOfRecord(rs[0], env);
    }
  }

  /** The steps of a stretch of rows are that stretch of the steps. */
  lemma RecordStepsSlice(rs: seq<RawRecord>, env: Env, lo: nat, hi: nat)
    ensures RecordSteps(Slice(rs, lo, hi), env) == Slice(RecordSteps(rs, env), lo, hi)
  {
    RecordStepsAt(rs, env);
    RecordStepsAt(Slice(rs, lo, hi), env);
  }

  /** The steps of each batch of rows. */
  function StepBatches(batches: seq<seq<RawRecord>>, env: Env): (sb: seq<seq<Step>>)
    ensures |sb| == |batches|
  {
    seq(|batches|, k requires 0 <= k < |batches| => RecordSteps(batches[k], env))
  }

  /** A row's step depends on the row alone, so batching the rows and then
      taking each batch's steps is batching the steps of the rows. */
  lemma StepBatchesCommute(rs: seq<RawRecord>, n: int, env: Env)
    requires n > 0
    ensures StepBatches(BatchTask(rs, n), env) == BatchTask(RecordSteps(rs, env), n)
  {
    var left := StepBatches(BatchTask(rs, n), env);
    var right := BatchTask(RecordSteps(rs, env), n);
    forall k | 0 <= k < |left|
      ensures left[k] == right[k]
    {
      RecordStepsSlice(rs, env, k * n, (k + 1) * n);
    }
  }

  /** The rows the script works on: the first 1600 of the file. */
  function RecipeRows(rows: seq<RawRecord>): (rs: seq<RawRecord>)
    ensures rs == rows[..Min(|rows|, RecipeLimit)]
  {
    Slice(rows, 0, RecipeLimit)
  }

  /** The batches of 32 of the first 1600 rows, as steps. */
  function Batches(rows: seq<RawRecord>, env: Env): (batches: seq<seq<Step>>) {
    StepBatches(BatchTask(RecipeRows(rows), BatchSize), env)
  }

  /** The batches of steps are the batches of the rows' steps. */
  lemma BatchesOfSteps(rows: seq<RawRecord>, env: Env)
    ensures Batches(rows, env) == BatchTask(RecordSteps(RecipeRows(rows), env), BatchSize)
  {
    StepBatchesCommute(RecipeRows(rows), BatchSize, env);
  }

  /** The whole script: provisioning, then the batch loop over the first
      1600 rows in batches of 32. Any error ends the script. */
  function Import(rows: seq<RawRecord>, indexes: map<string, IndexConfig>, env: Env): (run: Run)
    ensures run.indexes == Provision(indexes, env).indexes
    ensures Provision(indexes, env).error.Some? ==> run == Provision(indexes, env)
  {
    var p := Provision(indexes, env);
    if p.error.Some? then p
    else
      var s := RunBatches(Batches(rows, env));
      Run(p.indexes, p.calls + s.calls, s.error)
  }

  /** The first `m` steps are the steps of the first `m` rows. */
  lemma RecordStepsPrefix(rs: seq<RawRecord>, env: Env, m: nat)
    requires m <= |rs|
    ensures RecordSteps(rs, env)[..m] == RecordSteps(rs[..m], env)
  {
    RecordStepsAt(rs, env);
    RecordStepsAt(rs[..m], env);
  }

  /** When every step works, the script provisions and then issues the
      calls of exactly the first min(|rows|, 1600) rows, in file order. */
  lemma ImportAll(rows: seq<RawRecord>, indexes: map<string, IndexConfig>, env: Env)
    requires Provision(indexes, env).error.None?
    requires FirstFailure(Batches(rows, env)).None?
    ensures var p := Provision(indexes, env);
            Import(rows, indexes, env)
            == Run(p.indexes, p.calls + RunRecords(rows[..Min(|rows|, RecipeLimit)], env).calls, None)
  {
    var steps := RecordSteps(RecipeRows(rows), env);
    BatchesOfSteps(rows, env);
    RunBatchesCompletes(Batches(rows, env));
    BatchTaskFlatten(steps, BatchSize);
    ImportAfterProvision(rows, indexes, env);
  }

  /** When batch `k` is the first to fail, the script issues the calls of
      the rows of batches 0 to `k` and of no later row, and stops with
      that batch's error. */
  lemma ImportAborts(rows: seq<RawRecord>, indexes: map<string, IndexConfig>, env: Env, k: nat)
    requires Provision(indexes, env).error.None?
    requires FirstFailure(Batches(rows, env)) == Some(k)
    ensures k < |BatchTask(RecipeRows(rows), BatchSize)|
    ensures Import(rows, indexes, env)
            == Run(Provision(indexes, env).indexes,
                   Provision(indexes, env).calls
                   + RunRecords(RecipeRows(rows)[..Min((k + 1) * BatchSize, |RecipeRows(rows)|)], env).calls,
                   RunRecords(BatchTask(RecipeRows(rows), BatchSize)[k], env).error)
  {
    ImportAfterProvision(rows, indexes, env);
    LoopAborts(rows, env, k);
  }

  /** After provisioning the script runs the batch loop. */
  lemma ImportAfterProvision(rows: seq<RawRecord>, indexes: map<string, IndexConfig>, env: Env)
    requires Provision(indexes, env).error.None?
    ensures var p := Provision(indexes, env);
            var s := RunBatches(Batches(rows, env));
            Import(rows, indexes, env) == Run(p.indexes, p.calls + s.calls, s.error)
  {
  }

  /** The batch loop stops after the first failing batch. */
  lemma LoopAborts(rows: seq<RawRecord>, env: Env, k: nat)
    requires FirstFailure(Batches(rows, env)) == Some(k)
    ensures k < |BatchTask(RecipeRows(rows), BatchSize)|
    ensures RunBatches(Batches(rows, env))
            == Step(RunRecords(RecipeRows(rows)[..Min((k + 1) * BatchSize, |RecipeRows(rows)|)], env).calls,
                    RunRecords(BatchTask(RecipeRows(rows), BatchSize)[k], env).error)
  {
    var recipes := RecipeRows(rows);
    var batches := Batches(rows, env);
    var prefix := recipes[..Min((k + 1) * BatchSize, |recipes|)];
    RunBatchesAborts(batches, k);
    BatchesOfSteps(rows, env);
    FirstBatchesSteps(recipes, env, k);
    assert Flatten(batches[..k + 1]) == RecordSteps(prefix, env);
    var failing := BatchTask(recipes, BatchSize)[k];
    assert batches[k] == RecordSteps(failing, env);
  }

  /** The steps of batches 0 to `k` are the steps of the rows before
      offset `(k + 1) * 32`. */
  lemma FirstBatchesSteps(recipes: seq<RawRecord>, env: Env, k: nat)
    requires k < |BatchTask(RecordSteps(recipes, env), BatchSize)|
    ensures Flatten(BatchTask(RecordSteps(recipes, env), BatchSize)[..k + 1])
            == RecordSteps(recipes[..Min((k + 1) * BatchSize, |recipes|)], env)
  {
    var steps := RecordSteps(recipes, env);
    BatchPrefix(steps, BatchSize, k + 1, (k + 1) * BatchSize);
    RecordStepsPrefix(recipes, env, Min((k + 1) * BatchSize, |recipes|));
  }

  /** The script ends in an error exactly when provisioning fails or one
      of the first 1600 rows fails. */
  lemma ImportFails(rows: seq<RawRecord>, indexes: map<string, IndexConfig>, env: Env)
    ensures Import(rows, indexes, env).error.Some?
            <==> || Provision(indexes, env).error.Some?
                 || exists i :: 0 <= i < |RecipeRows(rows)| && ImportRecord(RecipeRows(rows)[i], env).error.Some?
  {
    var recipes := RecipeRows(rows);
    var steps := RecordSteps(recipes, env);
    if Provision(indexes, env).error.None? {
      StepBatchesCommute(recipes, BatchSize, env);
      RunBatchesFails(Batches(rows, env));
      BatchTaskFlatten(steps, BatchSize);
      assert RunRecords(recipes, env) == RunAll(steps);
    }
  }
}

=== FILE: js.dfy ===
/** JavaScript values as the recipe pipeline sees them.

    The source only ever handles strings and `undefined` in the places the
    model cares about (CSV cells, regex capture groups, environment
    variables, request fields), so a JavaScript value is one of those two.
 */
module Js {

  /** A string, or `undefined` (an absent CSV column, a capture group that
      did not take part in the match, an unset environment variable). */
  datatype Value = Undefined | Str(text: string)

  /** JavaScript truthiness restricted to strings and `undefined`:
      only a non-empty string is truthy. */
  predicate Truthy(v: Value) {
    v.Str? && v.text != ""
  }

  /** `String(v)`, as used by a template literal `${v}`. */
  function ToString(v: Value): (s: string) {
    match v
    case Undefined => "undefined"
    case Str(t) => t
  }

  /** Every string of `ss` as a JavaScript value. */
  function Strs(ss: seq<string>): (vs: seq<Value>) {
    seq(|ss|, i requires 0 <= i < |ss| => Str(ss[i]))
  }

  lemma StrsAt(ss: seq<string>)
    ensures |Strs(ss)| == |ss|
    ensures forall i :: 0 <= i < |ss| ==> Strs(ss)[i] == Str(ss[i])
  {
  }

  /** `vs.filter((v) => v)`: the truthy values of `vs`, in order. */
  function FilterTruthy(vs: seq<Value>): (r: seq<string>)
    ensures |r| <= |vs|
    ensures forall i :: 0 <= i < |r| ==> r[i] != ""
  {
    if |vs| == 0 then []
    else (if Truthy(vs[0]) then [vs[0].text] else []) + FilterTruthy(vs[1..])
  }

  /** Filtering keeps exactly the truthy values: every kept string is one of
      the values, and every truthy value is kept. */
  lemma {:induction false} FilterTruthyKeeps(vs: seq<Value>)
    ensures forall s :: s in FilterTruthy(vs) <==> Str(s) in vs && s != ""
    decreases |vs|
  {
    if |vs| != 0 {
      FilterTruthyKeeps(vs[1..]);
      assert vs == [vs[0]] + vs[1..];
    }
  }

  /** Filtering distributes over concatenation. */
  lemma {:induction false} FilterTruthyAppend(a: seq<Value>, b: seq<Value>)
    ensures FilterTruthy(a + b) == FilterTruthy(a) + FilterTruthy(b)
    decreases |a|
  {
    if |a| == 0 {
      assert a + b == b;
    } else {
      assert (a + b)[1..] == a[1..] + b;
      FilterTruthyAppend(a[1..], b);
    }
  }

  /** Filtering keeps every non-empty string, so it is the identity on them. */
  lemma {:induction false} FilterTruthyKeepsNonEmpty(ss: seq<string>)
    requires forall i :: 0 <= i < |ss| ==> ss[i] != ""
    ensures FilterTruthy(Strs(ss)) == ss
    decreases |ss|
  {
    if |ss| != 0 {
      assert Strs(ss)[1..] == Strs(ss[1..]);
      FilterTruthyKeepsNonEmpty(ss[1..]);
    }
  }

  /** Filtering drops every falsy value: none of them contributes anything. */
  lemma {:induction false} FilterTruthyDropsFalsy(vs: seq<Value>)
    requires forall i :: 0 <= i < |vs| ==> !Truthy(vs[i])
    ensures FilterTruthy(vs) == []
    decreases |vs|
  {
    if |vs| != 0 {
      FilterTruthyDropsFalsy(vs[1..]);
    }
  }
}

=== FILE: list_literals.dfy ===
/** The text the raw `tags`, `steps` and `ingredients` columns hold: a
    Python list of strings written out with `repr`, such as
    `['easy', "don't stir", 'quick']`. Python quotes an item with single
    quotes unless the item holds a single quote and no double quote, in
    which case it uses double quotes.

    The extractor of `QuotedLiterals` reads group 1 only, so the items
    written with double quotes are lost: decoding such a list gives back
    exactly the items that hold no single quote.
 */
module ListLiterals {
  import opened Wrappers
  import opened Js
  import opened QuotedLiterals

  /** The characters the model lets an item hold: printable ASCII except
      the backslash, which `repr` writes unescaped inside a quoted string.
      `repr` also writes printable non-ASCII characters as they are; the
      model leaves those out. */
  predicate Printable(c: char) {
    ' ' <= c <= '~' && c != '\\'
  }

  /** An item `repr` writes as its own text between two quotes: non-empty,
      printable, and not holding both kinds of quote (that would need an
      escape). */
  predicate Writable(x: string) {
    && |x| > 0
    && (forall i :: 0 <= i < |x| ==> Printable(x[i]))
    && !('\'' in x && '"' in x)
  }

  /** The quote `repr` puts around `x`. */
  function QuoteOf(x: string): (q: char) {
    if '\'' in x then '"' else '\''
  }

  /** `repr(x)` for a writable item. */
  function Repr(x: string): (s: string) {
    [QuoteOf(x)] + x + [QuoteOf(x)]
  }

  /** The items joined with ", ". */
  function Items(xs: seq<string>): (s: string)
    decreases |xs|
  {
    if |xs| == 0 then ""
    else if |xs| == 1 then Repr(xs[0])
    else Repr(xs[0]) + ", " + Items(xs[1..])
  }

  /** `str(xs)` for a Python list of writable strings. */
  function ListRepr(xs: seq<string>): (s: string) {
    "[" + Items(xs) + "]"
  }

  /** The items that hold no single quote, in order. */
  function SingleQuoted(xs: seq<string>): (r: seq<string>)
    ensures forall x :: x in r ==> x in xs && '\'' !in x
    decreases |xs|
  {
    if |xs| == 0 then []
    else (if '\'' in xs[0] then [] else [xs[0]]) + SingleQuoted(xs[1..])
  }

  /** What group 1 holds for the literal of `x`. */
  function LiteralGroup(x: string): (v: Value) {
    if '\'' in x then Undefined else Str(x)
  }

  function LiteralGroups(xs: seq<string>): (vs: seq<Value>)
    decreases |xs|
  {
    if |xs| == 0 then [] else [LiteralGroup(xs[0])] + LiteralGroups(xs[1..])
  }

  /** A text that does not start with a quote has no match at its start,
      so the search moves past its first character. */
  lemma SearchHead(s: string)
    requires |s| > 0 && !IsQuote(s[0])
    ensures Search(s[1..]).None? ==> Search(s).None?
    ensures Search(s[1..]).Some? ==> Search(s) == Some((Search(s[1..]).value.0 + 1, Search(s[1..]).value.1))
  {
    NoMatchAtPlain(s);
    if Search(s[1..]).Some? {
      var (p, m) := Search(s[1..]).value;
      assert Search(s) == Some((p + 1, m));
    }
  }

  lemma NoMatchAtPlain(s: string)
    requires |s| > 0 && !IsQuote(s[0])
    ensures MatchAt(s).None?
  {
  }

  lemma DropTail(s: string, k: nat)
    requires k < |s|
    ensures s[k + 1..] == s[1..][k..]
  {
  }

  /** And the scan steps over it. */
  lemma SkipHead(s: string)
    requires |s| > 0 && !IsQuote(s[0])
    ensures Matches(s) == Matches(s[1..])
  {
    SearchHead(s);
    MatchesStep(s);
    MatchesStep(s[1..]);
    if Search(s[1..]).Some? {
      var (p, m) := Search(s[1..]).value;
      DropTail(s, p + |m.whole|);
    }
  }

  /** The same, for a character put in front of a text. */
  lemma SkipChar(c: char, t: string)
    requires !IsQuote(c)
    ensures Matches([c] + t) == Matches(t)
  {
    assert ([c] + t)[1..] == t;
    SkipHead([c] + t);
  }

  lemma SkipSeparator(rest: string)
    ensures Matches(", " + rest) == Matches(rest)
  {
    SkipChar(' ', rest);
    assert ", " + rest == [','] + (" " + rest);
    assert " " + rest == [' '] + rest;
    SkipChar(',', " " + rest);
  }

  /** The lazy group stops at the first `q` after a stretch free of `q` and
      of line terminators. */
  lemma {:induction false} FindCloseAfter(x: string, q: char, t: string)
    requires IsQuote(q) && Plain(x, q)
    ensures FindClose(x + [q] + t, q) == Some(|x|)
    decreases |x|
  {
    var s := x + [q] + t;
    if |x| > 0 {
      assert s[1..] == x[1..] + [q] + t;
      FindCloseAfter(x[1..], q, t);
    }
  }

  lemma WritablePlain(x: string, q: char)
    requires Writable(x) && IsQuote(q) && q !in x
    ensures Plain(x, q)
  {
    forall i | 0 <= i < |x|
      ensures x[i] != q && !IsLineTerminator(x[i])
    {
      assert x[i] in x;
      assert Printable(x[i]);
    }
  }

  /** The greedy run before and after a literal is a single quote
      character, since the item neither starts with nor is followed by one. */
  lemma SingleRun(q: char, t: string)
    requires |t| == 0 || t[0] != q
    ensures RunLength([q] + t, q) == 1
  {
    assert ([q] + t)[1..] == t;
  }

  /** The pieces of a literal followed by more text. */
  lemma LiteralParts(q: char, x: string, t: string)
    ensures var s := [q] + x + [q] + t;
            && s[0] == q
            && s[1..] == x + [q] + t
            && s[1 + |x|..] == [q] + t
            && s[1..1 + |x|] == x
  {
  }

  /** `q+(.*?)q+` on the literal of `x` captures `x` and ends right after
      the closing quote. */
  lemma QuotedRunOfLiteral(x: string, q: char, t: string)
    requires Writable(x) && IsQuote(q) && q !in x
    requires |t| == 0 || t[0] != q
    ensures QuotedRun([q] + x + [q] + t, q) == Some((x, |x| + 2))
  {
    var s := [q] + x + [q] + t;
    LiteralParts(q, x, t);
    WritablePlain(x, q);
    assert x[0] in x;
    SingleRun(q, x + [q] + t);
    FindCloseAfter(x, q, t);
    SingleRun(q, t);
  }

  lemma DropPrefix(a: string, t: string, k: nat)
    requires k <= |t|
    ensures (a + t)[|a| + k..] == t[k..]
  {
  }

  lemma HeadTail(t: string)
    requires |t| > 0
    ensures t == [t[0]] + t[1..]
  {
  }

  /** A successful match at the start is the first match of the scan,
      and the scan resumes right after it. */
  lemma MatchesAtStart(s: string, m: RegexMatch, rest: string)
    requires MatchAt(s) == Some(m)
    requires s[|m.whole|..] == rest
    ensures Matches(s) == [m] + Matches(rest)
  {
    assert Search(s) == Some((0, m));
  }

  /** How much of `Repr(x) + t` the expression matches: the literal, and
      for a double-quoted one also a following comma. */
  function LiteralLength(x: string, t: string): (n: nat) {
    |x| + 2 + (if '\'' in x && |t| > 0 && t[0] == ',' then 1 else 0)
  }

  lemma ReprLength(x: string)
    ensures |Repr(x)| == |x| + 2
  {
  }

  /** The match at the start of the literal of `x`: group 1 is `x` for a
      single-quoted literal and `undefined` for a double-quoted one. */
  function LiteralMatchOf(x: string, t: string): (m: RegexMatch)
    requires LiteralLength(x, t) <= |Repr(x) + t|
    ensures |m.whole| == LiteralLength(x, t)
  {
    var whole := (Repr(x) + t)[..LiteralLength(x, t)];
    if '\'' in x then RegexMatch(whole, Undefined, Str(x))
    else RegexMatch(whole, Str(x), Undefined)
  }

  lemma LiteralMatchAt(x: string, t: string)
    requires Writable(x)
    requires |t| > 0 && (t[0] == ']' || t[0] == ',')
    ensures LiteralLength(x, t) <= |Repr(x) + t|
    ensures MatchAt(Repr(x) + t) == Some(LiteralMatchOf(x, t))
  {
    var s := Repr(x) + t;
    var q := QuoteOf(x);
    assert s == [q] + x + [q] + t;
    QuotedRunOfLiteral(x, q, t);
    assert s[|x| + 2] == t[0];
  }

  /** The scan takes the literal of `x` as one match and resumes after it. */
  lemma LiteralThenRest(x: string, t: string)
    requires Writable(x)
    requires |t| > 0 && (t[0] == ']' || t[0] == ',')
    ensures Matches(Repr(x) + t)
            == [LiteralMatchOf(x, t)] + Matches(t[LiteralLength(x, t) - |Repr(x)|..])
  {
    ReprLength(x);
    LiteralMatchAt(x, t);
    var k := LiteralLength(x, t) - |Repr(x)|;
    DropPrefix(Repr(x), t, k);
    MatchesAtStart(Repr(x) + t, LiteralMatchOf(x, t), t[k..]);
  }

  /** The literal of `x` is one match of the expression, followed by `t`. */
  lemma LiteralMatch(x: string, t: string)
    requires Writable(x)
    requires |t| > 0 && (t[0] == ']' || t[0] == ',')
    ensures Groups(Matches(Repr(x) + t), 1) == [LiteralGroup(x)] + Groups(Matches(t), 1)
  {
    LiteralThenRest(x, t);
    if LiteralLength(x, t) - |Repr(x)| == 1 {
      HeadTail(t);
      SkipChar(',', t[1..]);
    }
  }

  /** A literal that ends the text is its one match. */
  lemma LastLiteral(x: string)
    requires Writable(x)
    ensures Groups(Matches(Repr(x)), 1) == [LiteralGroup(x)]
  {
    var s := Repr(x);
    var q := QuoteOf(x);
    assert s == [q] + x + [q] + "";
    QuotedRunOfLiteral(x, q, "");
    var m := MatchAt(s).value;
    assert |m.whole| == |s|;
    MatchesAtStart(s, m, "");
  }

  /** Scanning the joined items gives one group per item, in order. */
  lemma {:induction false} ItemsGroups(xs: seq<string>)
    requires forall i :: 0 <= i < |xs| ==> Writable(xs[i])
    ensures Groups(Matches(Items(xs) + "]"), 1) == LiteralGroups(xs)
    decreases |xs|
  {
    if |xs| == 0 {
      assert Items(xs) + "]" == [']'] + "";
      SkipChar(']', "");
    } else if |xs| == 1 {
      var close := "]";
      LiteralMatch(xs[0], close);
      assert Items(xs) + "]" == Repr(xs[0]) + close;
      SkipChar(']', "");
      assert close == [']'] + "";
    } else {
      var tail := Items(xs[1..]) + "]";
      assert Items(xs) + "]" == Repr(xs[0]) + (", " + tail);
      LiteralMatch(xs[0], ", " + tail);
      SkipSeparator(tail);
      ItemsGroups(xs[1..]);
    }
  }

  lemma {:induction false} FilterLiteralGroups(xs: seq<string>)
    requires forall i :: 0 <= i < |xs| ==> Writable(xs[i])
    ensures FilterTruthy(LiteralGroups(xs)) == SingleQuoted(xs)
    decreases |xs|
  {
    if |xs| > 0 {
      var vs := LiteralGroups(xs);
      assert vs[1..] == LiteralGroups(xs[1..]);
      FilterLiteralGroups(xs[1..]);
    }
  }

  lemma ListReprSplit(xs: seq<string>)
    ensures ListRepr(xs) == ['['] + (Items(xs) + "]")
  {
  }

  /** The groups of the written-out list are the groups of its items. */
  lemma ListGroups(xs: seq<string>)
    requires forall i :: 0 <= i < |xs| ==> Writable(xs[i])
    ensures Groups(Matches(ListRepr(xs)), 1) == LiteralGroups(xs)
  {
    ListReprSplit(xs);
    SkipChar('[', Items(xs) + "]");
    ItemsGroups(xs);
  }

  /** Decoding the written-out list gives back the items that hold no
      single quote, in their order; the others are dropped. */
  lemma ExtractListRepr(xs: seq<string>)
    requires forall i :: 0 <= i < |xs| ==> Writable(xs[i])
    ensures Extract(Str(ListRepr(xs))) == SingleQuoted(xs)
  {
    ListGroups(xs);
    FilterLiteralGroups(xs);
  }

  /** In particular a list whose items hold no single quote decodes to
      itself. */
  lemma ExtractRoundTrip(xs: seq<string>)
    requires forall i :: 0 <= i < |xs| ==> Writable(xs[i]) && '\'' !in xs[i]
    ensures Extract(Str(ListRepr(xs))) == xs
  {
    ExtractListRepr(xs);
    SingleQuotedKeepsAll(xs);
  }

  /** A stretch without quotes starts no match anywhere, so the scan
      steps over all of it. */
  lemma {:induction false} SkipPlain(y: string, rest: string)
    requires forall i :: 0 <= i < |y| ==> !IsQuote(y[i])
    ensures Matches(y + rest) == Matches(rest)
    decreases |y|
  {
    if |y| > 0 {
      var s := y + rest;
      assert s[0] == y[0];
      assert s[1..] == y[1..] + rest;
      SkipHead(s);
      assert forall i :: 0 <= i < |y[1..]| ==> y[1..][i] == y[i + 1];
      SkipPlain(y[1..], rest);
    } else {
      assert y + rest == rest;
    }
  }

  /** Neither quote occurs in a text none of whose characters is one. */
  lemma NoQuoteIn(y: string)
    requires forall i :: 0 <= i < |y| ==> !IsQuote(y[i])
    ensures '\'' !in y && '"' !in y
  {
  }

  /** `repr` of a list whose first item is empty, `['', 'y']`. */
  lemma EmptyFirstText(y: string)
    requires '\'' !in y
    ensures ListRepr(["", y]) == ['['] + ("''" + (", '" + (y + "']")))
  {
    assert Items(["", y]) == Repr("") + ", " + Items([y]);
    assert Items([y]) == Repr(y);
  }

  /** After the two quotes of the empty item, the lazy group runs to the
      quote that opens the next item. */
  lemma SeparatorClose(y: string)
    ensures FindClose(", '" + (y + "']"), '\'') == Some(2)
  {
    var u := ", '" + (y + "']");
    assert u[0] == ',' && u[1..] == " '" + (y + "']");
    assert u[1..][0] == ' ' && u[1..][1..] == "'" + (y + "']");
    assert FindClose(u[1..][1..], '\'') == Some(0);
    assert FindClose(u[1..], '\'') == Some(1);
  }

  /** The empty item's two quotes form one run, so the match opens there
      and closes at the quote before the next item, capturing the
      separator ", ". */
  lemma EmptyFirstMatch(y: string, t: string)
    requires Writable(y) && forall i :: 0 <= i < |y| ==> !IsQuote(y[i])
    requires t == "''" + (", '" + (y + "']"))
    ensures MatchAt(t) == Some(RegexMatch(t[..5], Str(", "), Undefined))
    ensures t[5..] == y + "']"
  {
    var u := ", '" + (y + "']");
    assert t[0] == '\'' && t[1] == '\'' && t[2] == ',';
    assert t[2..] == u;
    assert t[1..][1..] == u;
    assert RunLength(u, '\'') == 0;
    assert t[1..][0] == '\'';
    assert RunLength(t[1..], '\'') == 1;
    assert RunLength(t, '\'') == 2;
    SeparatorClose(y);
    assert t[4..] == ['\''] + (y + "']");
    assert (y + "']")[0] == y[0];
    SingleRun('\'', y + "']");
    assert t[2..4] == ", ";
  }

  /** A lone quote before the closing bracket starts no match. */
  lemma QuoteBracketNoMatches()
    ensures Matches("']") == []
  {
    var t := "']";
    assert t[1..] == "]";
    assert FindClose(t[1..][1..], '\'') == None;
    assert FindClose(t[1..], '\'') == None;
    assert MatchAt(t).None?;
    assert MatchAt(t[1..]).None?;
    assert Search(t[1..][1..]).None?;
  }

  /** The scan of `['', 'y']` finds a single match, which ends where the
      second item starts. */
  lemma EmptyFirstMatches(y: string)
    requires Writable(y) && forall i :: 0 <= i < |y| ==> !IsQuote(y[i])
    ensures Groups(Matches(ListRepr(["", y])), 1) == [Str(", ")]
  {
    var t := "''" + (", '" + (y + "']"));
    EmptyFirstText(y);
    NoQuoteIn(y);
    SkipChar('[', t);
    EmptyFirstMatch(y, t);
    MatchesStep(t);
    SkipPlain(y, "']");
    QuoteBracketNoMatches();
  }

  /** An empty item, which `Writable` keeps out of the round trip, is not
      read back: in `['', 'y']` the two quotes of the empty item form one
      run, group 1 captures the separator ", ", and `y` is lost. */
  lemma EmptyItemQuirk(y: string)
    requires Writable(y) && forall i :: 0 <= i < |y| ==> !IsQuote(y[i])
    ensures Extract(Str(ListRepr(["", y]))) == [", "]
  {
    EmptyFirstMatches(y);
    assert FilterTruthy([Str(", ")]) == [", "];
  }

  /** An item `repr` writes with no quote and no escape in it. */
  predicate Bare(x: string) {
    Writable(x) && forall i :: 0 <= i < |x| ==> !IsQuote(x[i])
  }

  /** `repr` of the item `a'b"c"`, which holds both kinds of quote: single
      quotes around it, and the inner single quote escaped. */
  function EscapedRepr(a: string, b: string, c: string): (s: string) {
    ['\''] + (a + ['\\']) + ['\''] + (b + (['"'] + c + ['"'] + ['\'']))
  }

  /** The opening quote's lazy group stops at the escaped quote, so group
      1 is the text before it with the backslash. */
  lemma EscapedFirstMatch(a: string, r: string)
    requires Bare(a)
    requires |r| > 0 && r[0] != '\''
    ensures var t := ['\''] + (a + ['\\']) + ['\''] + r;
            MatchAt(t) == Some(RegexMatch(t[..|a| + 3], Str(a + ['\\']), Undefined))
            && t[|a| + 3..] == r
  {
    var x := a + ['\\'];
    var t := ['\''] + x + ['\''] + r;
    LiteralParts('\'', x, r);
    assert x[0] == a[0];
    SingleRun('\'', x + ['\''] + r);
    assert Plain(x, '\'') by {
      forall i | 0 <= i < |x|
        ensures x[i] != '\'' && !IsLineTerminator(x[i])
      {
        if i < |a| {
          assert x[i] == a[i] && Printable(a[i]);
        }
      }
    }
    FindCloseAfter(x, '\'', r);
    SingleRun('\'', r);
  }

  /** The double-quoted rest of the item is a match of the second
      alternative: group 1 is `undefined`. */
  lemma DoubleQuotedMatch(c: string, r: string)
    requires Bare(c)
    requires |r| > 0 && r[0] == '\''
    ensures var t := ['"'] + c + ['"'] + r;
            MatchAt(t) == Some(RegexMatch(t[..|c| + 2], Undefined, Str(c)))
            && t[|c| + 2..] == r
  {
    var t := ['"'] + c + ['"'] + r;
    NoQuoteIn(c);
    QuotedRunOfLiteral(c, '"', r);
    LiteralParts('"', c, r);
    assert t[|c| + 2] == r[0];
  }

  /** The quote that closes the item opens a match that ends at the quote
      of the next item, capturing the separator. */
  lemma SeparatorMatch(r: string)
    requires |r| > 0 && !IsQuote(r[0])
    ensures var t := ['\''] + ", " + ['\''] + r;
            MatchAt(t) == Some(RegexMatch(t[..4], Str(", "), Undefined))
            && t[4..] == r
  {
    var t := ['\''] + ", " + ['\''] + r;
    QuotedRunOfLiteral(", ", '\'', r);
    LiteralParts('\'', ", ", r);
  }

  /** The scan from the separator on: one match, the separator. */
  lemma SeparatorMatches(y: string)
    requires Bare(y)
    ensures Groups(Matches(['\''] + ", " + ['\''] + (y + "']")), 1) == [Str(", ")]
  {
    var r := y + "']";
    var t := ['\''] + ", " + ['\''] + r;
    assert r[0] == y[0];
    SeparatorMatch(r);
    MatchesAtStart(t, MatchAt(t).value, r);
    SkipPlain(y, "']");
    QuoteBracketNoMatches();
  }

  /** The scan from the end of the escaped quote on: the double-quoted
      stretch, then the separator. */
  lemma AfterEscapeMatches(b: string, c: string, y: string)
    requires Bare(b) && Bare(c) && Bare(y)
    ensures Groups(Matches(b + (['"'] + c + ['"'] + (['\''] + ", " + ['\''] + (y + "']")))), 1)
            == [Undefined, Str(", ")]
  {
    var r := ['\''] + ", " + ['\''] + (y + "']");
    var t := ['"'] + c + ['"'] + r;
    DoubleQuotedMatch(c, r);
    MatchesAtStart(t, MatchAt(t).value, r);
    SeparatorMatches(y);
    SkipPlain(b, t);
  }

  /** The text of `[a'b"c", y]` as Python writes it, cut where the scan
      cuts it. */
  lemma EscapedListText(a: string, b: string, c: string, y: string)
    requires Bare(y)
    ensures "[" + EscapedRepr(a, b, c) + ", " + Repr(y) + "]"
            == ['['] + (['\''] + (a + ['\\']) + ['\'']
                        + (b + (['"'] + c + ['"'] + (['\''] + ", " + ['\''] + (y + "']")))))
  {
    NoQuoteIn(y);
    assert Repr(y) == ['\''] + y + ['\''];
  }

  /** The scan of `['a\'b"c"', 'y']`: three matches, whose groups 1 are
      the text before the escape, `undefined` and the separator. */
  lemma EscapedGroups(a: string, b: string, c: string, y: string)
    requires Bare(a) && Bare(b) && Bare(c) && Bare(y)
    ensures Groups(Matches("[" + EscapedRepr(a, b, c) + ", " + Repr(y) + "]"), 1)
            == [Str(a + ['\\']), Undefined, Str(", ")]
  {
    var r := b + (['"'] + c + ['"'] + (['\''] + ", " + ['\''] + (y + "']")));
    var t := ['\''] + (a + ['\\']) + ['\''] + r;
    EscapedListText(a, b, c, y);
    SkipChar('[', t);
    assert r[0] == b[0];
    EscapedFirstMatch(a, r);
    MatchesAtStart(t, MatchAt(t).value, r);
    AfterEscapeMatches(b, c, y);
  }

  /** What `Extract` does to a column that holds `text`. */
  lemma ExtractText(text: string)
    ensures Extract(Str(text)) == FilterTruthy(Groups(Matches(text), 1))
  {
  }

  /** An item holding both kinds of quote is not read back: in
      `['a\'b"c"', 'y']` group 1 stops at the escaped quote and keeps the
      backslash, the double-quoted `c` matches the second alternative,
      the separator after the item is read as an item, and `y` is lost. */
  lemma EscapedQuoteQuirk(a: string, b: string, c: string, y: string)
    requires Bare(a) && Bare(b) && Bare(c) && Bare(y)
    ensures Extract(Str("[" + EscapedRepr(a, b, c) + ", " + Repr(y) + "]")) == [a + ['\\'], ", "]
  {
    var text := "[" + EscapedRepr(a, b, c) + ", " + Repr(y) + "]";
    var x := a + ['\\'];
    EscapedGroups(a, b, c, y);
    ExtractText(text);
    assert FilterTruthy([Str(", ")]) == [", "];
    assert FilterTruthy([Undefined, Str(", ")]) == [", "];
    assert [Str(x), Undefined, Str(", ")][1..] == [Undefined, Str(", ")];
  }

  lemma {:induction false} SingleQuotedKeepsAll(xs: seq<string>)
    requires forall i :: 0 <= i < |xs| ==> '\'' !in xs[i]
    ensures SingleQuoted(xs) == xs
    decreases |xs|
  {
    if |xs| > 0 {
      SingleQuotedKeepsAll(xs[1..]);
    }
  }
}

=== FILE: quoted_literals.dfy ===
/** `getMatches` of scripts/import-data.js together with the one regular
    expression it is used with,

        /(?:'+(.*?)'+|"+(.*?)"+,?)/g

    Tried at a position, the expression behaves as follows (JavaScript's
    backtracking spelled out):
    - on a run of k single quotes, the greedy `'+` first takes the whole run
      and the lazy `(.*?)` stretches to the first single quote after it,
      provided no line terminator comes first (`.` does not match one); the
      closing `'+` then takes the whole run of quotes found there;
    - if no such quote exists and k >= 2, the opening `'+` gives back one
      quote, which then closes an empty group: the match is the run itself;
    - if k == 1 the first alternative fails, and so does the second, which
      needs a double quote;
    - on a run of double quotes the second alternative does the same, and
      then also takes one comma if one follows;
    - anywhere else nothing matches.
    Group 1 is the first alternative's inner text and is `undefined` when
    the second alternative matched; group 2 is the reverse.

    With the `g` flag, successive `exec` calls resume at `lastIndex`, the end
    of the previous match. Matching from `lastIndex` depends only on the
    text from there on, so the functions below are stated on suffixes.
 */
module QuotedLiterals {
  import opened Wrappers
  import opened Js

  /** The characters `.` refuses to match. */
  predicate IsLineTerminator(c: char) {
    c == '\n' || c == '\r' || c == '\U{2028}' || c == '\U{2029}'
  }

  predicate IsQuote(q: char) {
    q == '\'' || q == '"'
  }

  /** `s` holds neither `q` nor a line terminator: a lazy `(.*?)` can
      cross all of it while looking for `q`. */
  predicate Plain(s: string, q: char) {
    forall i :: 0 <= i < |s| ==> s[i] != q && !IsLineTerminator(s[i])
  }

  /** A value that can stand as group 1: `undefined`, or a text with no
      single quote and no line terminator. */
  predicate SingleQuoteFree(v: Value) {
    v.Str? ==> Plain(v.text, '\'')
  }

  /** One successful match: the matched text (group 0) and groups 1 and 2. */
  datatype RegexMatch = RegexMatch(whole: string, group1: Value, group2: Value)

  /** How many copies of `q` lead `t`: what a greedy `q+` takes. */
  function RunLength(t: string, q: char): (n: nat)
    ensures n <= |t|
    ensures n < |t| ==> t[n] != q
    decreases |t|
  {
    if |t| > 0 && t[0] == q then 1 + RunLength(t[1..], q) else 0
  }

  /** The run is made of `q` only, so it is the longest prefix of copies of `q`. */
  lemma {:induction false} RunLengthIsRun(t: string, q: char)
    ensures forall i :: 0 <= i < RunLength(t, q) ==> t[i] == q
    decreases |t|
  {
    if |t| > 0 && t[0] == q {
      RunLengthIsRun(t[1..], q);
    }
  }

  /** Where a lazy `(.*?)` followed by `q` stops in `t`: the first `q`,
      unless a line terminator comes before it. */
  function FindClose(t: string, q: char): (r: Option<nat>)
    requires IsQuote(q)
    ensures r.Some? ==> r.value < |t| && t[r.value] == q && Plain(t[..r.value], q)
    decreases |t|
  {
    if |t| == 0 then None
    else if t[0] == q then Some(0)
    else if IsLineTerminator(t[0]) then None
    else
      match FindClose(t[1..], q)
      case None => None
      case Some(j) =>
        assert t[..j + 1] == [t[0]] + t[1..][..j];
        Some(j + 1)
  }

  /** A stretch is plain when its first character is and the rest is. */
  lemma PlainCons(t: string, q: char, i: nat)
    requires 0 < i <= |t|
    ensures Plain(t[..i], q) <==> t[0] != q && !IsLineTerminator(t[0]) && Plain(t[1..][..i - 1], q)
  {
    assert t[..i] == [t[0]] + t[1..][..i - 1];
  }

  /** `FindClose` fails exactly when every `q` of `t` comes after a line
      terminator (or there is none). */
  lemma {:induction false} FindCloseFails(t: string, q: char)
    requires IsQuote(q)
    ensures FindClose(t, q).None? <==> forall i :: 0 <= i <= |t| && Plain(t[..i], q) ==> i == |t| || t[i] != q
    decreases |t|
  {
    if |t| > 0 && t[0] != q && !IsLineTerminator(t[0]) {
      FindCloseFails(t[1..], q);
      forall i | 0 < i <= |t|
        ensures Plain(t[..i], q) <==> Plain(t[1..][..i - 1], q)
      {
        PlainCons(t, q, i);
      }
      forall i | 0 < i < |t|
        ensures t[i] == t[1..][i - 1]
      {
      }
    }
  }

  /** `q+(.*?)q+` tried at the start of `t`, which holds a `q`: the inner
      text and the length of the match. */
  function QuotedRun(t: string, q: char): (r: Option<(string, nat)>)
    requires IsQuote(q) && |t| > 0 && t[0] == q
    ensures r.Some? ==> 2 <= r.value.1 <= |t|
    ensures r.Some? ==> Plain(r.value.0, q)
  {
    var k := RunLength(t, q);
    match FindClose(t[k..], q)
    case Some(j) =>
      assert t[k..k + j] == t[k..][..j];
      Some((t[k..k + j], k + j + RunLength(t[k + j..], q)))
    case None =>
      if k >= 2 then Some(("", k)) else None
  }

  /** The whole expression tried at the start of `t`. */
  function MatchAt(t: string): (m: Option<RegexMatch>)
    ensures m.Some? ==> 2 <= |m.value.whole| <= |t|
    ensures m.Some? ==> SingleQuoteFree(m.value.group1)
    ensures m.Some? && m.value.group1.Str? ==> t[0] == '\''
  {
    if |t| == 0 then None
    else if t[0] == '\'' then
      match QuotedRun(t, '\'')
      case None => None
      case Some((inner, n)) => Some(RegexMatch(t[..n], Str(inner), Undefined))
    else if t[0] == '"' then
      match QuotedRun(t, '"')
      case None => None
      case Some((inner, n)) =>
        var n' := if n < |t| && t[n] == ',' then n + 1 else n;
        Some(RegexMatch(t[..n'], Undefined, Str(inner)))
    else None
  }

  /** One `regex.exec` on the text `t` that remains from `lastIndex` on:
      the leftmost match, with its offset in `t`. */
  function Search(t: string): (r: Option<(nat, RegexMatch)>)
    ensures r.Some? ==> r.value.0 + |r.value.1.whole| <= |t|
    ensures r.Some? ==> SingleQuoteFree(r.value.1.group1)
    decreases |t|
  {
    if |t| == 0 then None
    else
      match MatchAt(t)
      case Some(m) => Some((0, m))
      case None =>
        match Search(t[1..])
        case None => None
        case Some((p, m)) =>
          Some((p + 1, m))
  }

  /** Group 1 of the match found is set only if the text holds a single
      quote. */
  lemma {:induction false} SearchQuote(t: string)
    ensures Search(t).Some? && Search(t).value.1.group1.Str? ==> '\'' in t
    decreases |t|
  {
    if |t| > 0 && MatchAt(t).None? {
      SearchQuote(t[1..]);
      assert forall c :: c in t[1..] ==> c in t;
    }
  }

  /** The search finds the leftmost match: what it returns is a match at
      its offset and no earlier offset starts one, and when it finds
      nothing no offset starts a match. */
  lemma {:induction false} SearchLeftmost(t: string)
    ensures Search(t).Some? ==> MatchAt(t[Search(t).value.0..]) == Some(Search(t).value.1)
    ensures Search(t).Some? ==> forall p :: 0 <= p < Search(t).value.0 ==> MatchAt(t[p..]).None?
    ensures Search(t).None? ==> forall p :: 0 <= p < |t| ==> MatchAt(t[p..]).None?
    decreases |t|
  {
    if |t| > 0 && MatchAt(t).None? {
      SearchLeftmost(t[1..]);
      assert forall p :: 1 <= p <= |t| ==> t[p..] == t[1..][p - 1..];
    }
  }

  /** All non-overlapping matches in `t`, leftmost first: what repeated
      `exec` calls return until one fails. Each match is at least two
      characters long, which is why the scan ends. */
  function Matches(t: string): (ms: seq<RegexMatch>)
    decreases |t|
  {
    match Search(t)
    case None => []
    case Some((p, m)) => [m] + Matches(t[p + |m.whole|..])
  }

  /** One step of the scan: the match `exec` finds, then the scan of what
      follows it. */
  lemma MatchesStep(t: string)
    ensures Search(t).None? ==> Matches(t) == []
    ensures Search(t).Some? ==> Matches(t) == [Search(t).value.1] + Matches(t[Search(t).value.0 + |Search(t).value.1.whole|..])
  {
  }

  /** `match[index]`: group 0 is the matched text; a group the expression
      does not have is `undefined`. */
  function Group(m: RegexMatch, index: int): (v: Value) {
    if index == 0 then Str(m.whole)
    else if index == 1 then m.group1
    else if index == 2 then m.group2
    else Undefined
  }

  /** Group `index` of each match, in order. */
  function Groups(ms: seq<RegexMatch>, index: int): (vs: seq<Value>)
    ensures |vs| == |ms|
    decreases |ms|
  {
    if |ms| == 0 then [] else [Group(ms[0], index)] + Groups(ms[1..], index)
  }

  /** Group 1 of every match is `undefined` or a text free of single
      quotes and line terminators; and without any single quote in the
      text, group 1 is always `undefined`. */
  lemma {:induction false} Group1Values(t: string)
    ensures forall v :: v in Groups(Matches(t), 1) ==> SingleQuoteFree(v)
    ensures '\'' !in t ==> forall v :: v in Groups(Matches(t), 1) ==> v == Undefined
    decreases |t|
  {
    match Search(t)
    case None =>
    case Some((p, m)) =>
      var rest := t[p + |m.whole|..];
      Group1Values(rest);
      SearchQuote(t);
      assert Groups(Matches(t), 1) == [m.group1] + Groups(Matches(rest), 1);
      assert forall c :: c in rest ==> c in t;
  }

  /** `getMatches(string, regex, index)`: run `exec` until it fails and
      collect group `index` of every match; a falsy index (modelled as 0)
      means group 1. `rest` is the text from the expression's `lastIndex`
      on, where each `exec` resumes. */
  method GetMatches(s: string, index: int) returns (matches: seq<Value>)
    ensures matches == Groups(Matches(s), if index == 0 then 1 else index)
  {
    var group := index;
    if group == 0 {
      group := 1;
    }
    matches := [];
    var rest := s;
    var found := Search(rest);
    while found.Some?
      invariant found == Search(rest)
      invariant matches + Groups(Matches(rest), group) == Groups(Matches(s), group)
      decreases |rest|
    {
      var (offset, m) := found.value;
      var after := rest[offset + |m.whole|..];
      assert Groups(Matches(rest), group) == [Group(m, group)] + Groups(Matches(after), group);
      matches := matches + [Group(m, group)];
      rest := after;
      found := Search(rest);
    }
  }

  /** The list values of one raw column:
      `getMatches(raw, myRegEx, 1).filter((v) => v)`. An absent column is
      coerced to the text "undefined" first. */
  function Extract(raw: Value): (values: seq<string>)
    ensures forall v :: v in values ==> v != "" && SingleQuoteFree(Str(v))
  {
    var groups := Groups(Matches(ToString(raw)), 1);
    Group1Values(ToString(raw));
    FilterTruthyKeeps(groups);
    FilterTruthy(groups)
  }

  /** A column with no single quote yields no value: this covers an absent
      column (read as "undefined") and a column of double-quoted items. */
  lemma NoSingleQuoteNoValues(raw: Value)
    requires '\'' !in ToString(raw)
    ensures Extract(raw) == []
  {
    var groups := Groups(Matches(ToString(raw)), 1);
    Group1Values(ToString(raw));
    assert forall i :: 0 <= i < |groups| ==> groups[i] in groups;
    FilterTruthyDropsFalsy(groups);
  }
}

=== FILE: recipes.dfy ===
/** One recipe row turned into index entries (scripts/import-data.js,
    lines 126-168): the extracted list columns, the metadata record, the
    text fragments that get embedded, and one entry per embedding. */
module Recipes {
  import opened Js
  import opened QuotedLiterals
  import opened ListLiterals

  /** One row of the recipe file, keyed by column name. A column the row
      does not have reads as `undefined`. */
  datatype RawRecord = RawRecord(
    id: Value,
    name: Value,
    minutes: Value,
    tags: Value,
    steps: Value,
    ingredients: Value,
    description: Value)

  /** The payload stored beside every vector of one recipe: the three list
      columns decoded, the other fields as they were read. */
  datatype Metadata = Metadata(
    tags: seq<string>,
    description: Value,
    name: Value,
    minutes: Value,
    steps: seq<string>,
    ingredients: seq<string>)

  /** An embedding. Its numbers are never inspected here, only carried. */
  type Vector = seq<real>

  /** One vector written to the index. */
  datatype IndexEntry = IndexEntry(id: Value, values: Vector, metadata: Metadata)

  /** Every item is what the extractor can produce: non-empty and free of
      single quotes and line terminators. */
  predicate Decoded(xs: seq<string>) {
    forall i :: 0 <= i < |xs| ==> xs[i] != "" && SingleQuoteFree(Str(xs[i]))
  }

  lemma ExtractDecoded(raw: Value)
    ensures Decoded(Extract(raw))
  {
    var xs := Extract(raw);
    forall i | 0 <= i < |xs|
      ensures xs[i] != "" && SingleQuoteFree(Str(xs[i]))
    {
      assert xs[i] in xs;
    }
  }

  /** The metadata record of a row. */
  function RecipeMetadata(r: RawRecord): (m: Metadata)
    ensures Decoded(m.tags) && Decoded(m.steps) && Decoded(m.ingredients)
  {
    ExtractDecoded(r.tags);
    ExtractDecoded(r.steps);
    ExtractDecoded(r.ingredients);
    Metadata(
      tags := Extract(r.tags),
      description := r.description,
      name := r.name,
      minutes := r.minutes,
      steps := Extract(r.steps),
      ingredients := Extract(r.ingredients))
  }

  /** For a row whose list columns are Python lists written out with
      `str`, the metadata holds the items of each list that have no single
      quote, in order, and the other fields exactly as read. */
  lemma MetadataOfLists(r: RawRecord, tags: seq<string>, steps: seq<string>, ingredients: seq<string>)
    requires forall i :: 0 <= i < |tags| ==> Writable(tags[i])
    requires forall i :: 0 <= i < |steps| ==> Writable(steps[i])
    requires forall i :: 0 <= i < |ingredients| ==> Writable(ingredients[i])
    requires r.tags == Str(ListRepr(tags))
    requires r.steps == Str(ListRepr(steps))
    requires r.ingredients == Str(ListRepr(ingredients))
    ensures RecipeMetadata(r)
            == Metadata(SingleQuoted(tags), r.description, r.name, r.minutes,
                        SingleQuoted(steps), SingleQuoted(ingredients))
  {
    ExtractListRepr(tags);
    ExtractListRepr(steps);
    ExtractListRepr(ingredients);
  }

  /** The three phrasings of the cooking time, built by template literals
      (so an absent `minutes` reads "undefined"). */
  function Durations(minutes: Value): (phrases: seq<string>) {
    var m := ToString(minutes);
    ["done in " + m + " minutes", "time taken " + m + " minutes", m + " minutes"]
  }

  /** The fragments of one row before filtering: the name, every tag, step
      and ingredient, the three duration phrasings, and the description
      when it is truthy. */
  function Queries(r: RawRecord, m: Metadata): (qs: seq<Value>) {
    [r.name] + Strs(m.tags) + Strs(m.steps) + Strs(m.ingredients)
    + Strs(Durations(r.minutes))
    + (if Truthy(r.description) then [r.description] else [])
  }

  /** The texts embedded for a row: its queries with the falsy ones
      removed. The three duration phrasings are never empty, so there are
      always at least three. */
  function Fragments(r: RawRecord): (fs: seq<string>)
    ensures |fs| >= 3
    ensures forall i :: 0 <= i < |fs| ==> fs[i] != ""
  {
    var m := RecipeMetadata(r);
    FragmentsLayout(r);
    FilterTruthy(Queries(r, m))
  }

  /** The text of a value when it is truthy, and nothing otherwise. */
  function Present(v: Value): (r: seq<string>)
    ensures |r| <= 1
  {
    if Truthy(v) then [v.text] else []
  }

  lemma FilterOne(v: Value)
    ensures FilterTruthy([v]) == Present(v)
  {
    assert [v][1..] == [];
  }

  lemma DurationsNonEmpty(minutes: Value)
    ensures forall i :: 0 <= i < |Durations(minutes)| ==> Durations(minutes)[i] != ""
  {
  }

  /** Where each fragment comes from: the name if truthy, then the tags,
      steps and ingredients in their order, the three duration phrasings,
      and the description if truthy. */
  lemma FragmentsLayout(r: RawRecord)
    ensures var m := RecipeMetadata(r);
            FilterTruthy(Queries(r, m))
            == Present(r.name) + m.tags + m.steps + m.ingredients
               + Durations(r.minutes) + Present(r.description)
  {
    var m := RecipeMetadata(r);
    var a := [r.name];
    var b := Strs(m.tags);
    var c := Strs(m.steps);
    var d := Strs(m.ingredients);
    var e := Strs(Durations(r.minutes));
    var f: seq<Value> := if Truthy(r.description) then [r.description] else [];
    FilterTruthyAppend(a + b + c + d + e, f);
    FilterTruthyAppend(a + b + c + d, e);
    FilterTruthyAppend(a + b + c, d);
    FilterTruthyAppend(a + b, c);
    FilterTruthyAppend(a, b);
    FilterOne(r.name);
    FilterTruthyKeepsNonEmpty(m.tags);
    FilterTruthyKeepsNonEmpty(m.steps);
    FilterTruthyKeepsNonEmpty(m.ingredients);
    DurationsNonEmpty(r.minutes);
    FilterTruthyKeepsNonEmpty(Durations(r.minutes));
    if Truthy(r.description) {
      FilterOne(r.description);
    } else {
      assert FilterTruthy(f) == [];
    }
  }

  /** How many fragments a row yields: one for a truthy name, one per
      decoded tag, step and ingredient, three for the cooking time, and one
      for a truthy description. */
  lemma FragmentCount(r: RawRecord)
    ensures var m := RecipeMetadata(r);
            |Fragments(r)|
            == |Present(r.name)| + |m.tags| + |m.steps| + |m.ingredients|
               + 3 + |Present(r.description)|
  {
    FragmentsLayout(r);
  }

  /** `embeddings.map((embedding) => ({id, values: embedding, metadata}))`:
      one entry per embedding, all with the row's id and metadata. */
  function Entries(id: Value, metadata: Metadata, embeddings: seq<Vector>): (es: seq<IndexEntry>)
    ensures |es| == |embeddings|
    ensures forall i :: 0 <= i < |es| ==> es[i].id == id && es[i].metadata == metadata
  {
    seq(|embeddings|, i requires 0 <= i < |embeddings| => IndexEntry(id, embeddings[i], metadata))
  }

  /** The vectors of a list of entries, in order. */
  function ValuesOf(es: seq<IndexEntry>): (vs: seq<Vector>)
    ensures |vs| == |es|
  {
    seq(|es|, i requires 0 <= i < |es| => es[i].values)
  }

  /** The entries carry the embeddings unchanged and in order: projecting
      the vectors back out gives the embeddings. */
  lemma EntriesValues(id: Value, metadata: Metadata, embeddings: seq<Vector>)
    ensures ValuesOf(Entries(id, metadata, embeddings)) == embeddings
  {
  }

  /** Two entries of one upsert differ at most in their vectors. */
  lemma EntriesShareRecord(id: Value, metadata: Metadata, embeddings: seq<Vector>, i: nat, j: nat)
    requires i < |embeddings| && j < |embeddings|
    ensures var es := Entries(id, metadata, embeddings);
            es[i].(values := es[j].values) == es[j]
  {
  }

  /** The entries written for a row, given the embeddings of its fragments. */
  function RecordEntries(r: RawRecord, embeddings: seq<Vector>): (es: seq<IndexEntry>)
    ensures |es| == |embeddings|
  {
    Entries(r.id, RecipeMetadata(r), embeddings)
  }
}

=== FILE: scenario.dfy ===
/** A worked row: a soup recipe whose list columns hold two quoted items
    each, traced through extraction, fragment building and the upsert. */
module Scenario {
  import opened Js
  import opened QuotedLiterals
  import opened ListLiterals
  import opened Recipes
  import opened Ingestion

  /** The literal of an item without a single quote is the item between
      single quotes. */
  lemma ReprPlain(x: string)
    requires '\'' !in x
    ensures Repr(x) == ['\''] + x + ['\'']
  {
  }

  /** The scan of two literals joined by a bare comma finds the two
      items. */
  lemma PairGroups(x: string, y: string)
    requires Writable(x) && Writable(y) && '\'' !in x && '\'' !in y
    ensures Groups(Matches(Repr(x) + "," + Repr(y)), 1) == [Str(x), Str(y)]
  {
    var tail := "," + Repr(y);
    assert Repr(x) + "," + Repr(y) == Repr(x) + tail;
    LiteralMatch(x, tail);
    assert tail == [','] + Repr(y);
    SkipChar(',', Repr(y));
    LastLiteral(y);
  }

  /** Two single-quoted items separated by a bare comma decode to the two
      items. */
  lemma PairLiterals(x: string, y: string)
    requires Writable(x) && Writable(y) && '\'' !in x && '\'' !in y
    ensures Extract(Str(Repr(x) + "," + Repr(y))) == [x, y]
  {
    PairGroups(x, y);
    assert Strs([x, y]) == [Str(x), Str(y)];
    FilterTruthyKeepsNonEmpty([x, y]);
  }

  lemma TagsText()
    ensures Repr("easy") + "," + Repr("quick") == "'easy','quick'"
  {
    ReprPlain("easy");
    ReprPlain("quick");
  }

  lemma TagsColumn()
    ensures Extract(Str("'easy','quick'")) == ["easy", "quick"]
  {
    TagsText();
    PairLiterals("easy", "quick");
  }

  lemma StepsText()
    ensures Repr("boil water") + "," + Repr("add salt") == "'boil water','add salt'"
  {
    ReprPlain("boil water");
    ReprPlain("add salt");
  }

  lemma StepsColumn()
    ensures Extract(Str("'boil water','add salt'")) == ["boil water", "add salt"]
  {
    StepsText();
    PairLiterals("boil water", "add salt");
  }

  lemma IngredientsText()
    ensures Repr("water") + "," + Repr("salt") == "'water','salt'"
  {
    ReprPlain("water");
    ReprPlain("salt");
  }

  lemma IngredientsColumn()
    ensures Extract(Str("'water','salt'")) == ["water", "salt"]
  {
    IngredientsText();
    PairLiterals("water", "salt");
  }

  /** The soup row of the example: its columns as the file holds them. */
  predicate IsSoup(r: RawRecord) {
    && r.id == Str("1")
    && r.name == Str("Soup")
    && r.minutes == Str("30")
    && r.tags == Str("'easy','quick'")
    && r.steps == Str("'boil water','add salt'")
    && r.ingredients == Str("'water','salt'")
    && r.description == Str("Simple soup")
  }

  /** The soup row's metadata holds the decoded lists. */
  lemma SoupMetadata(r: RawRecord)
    requires IsSoup(r)
    ensures RecipeMetadata(r)
            == Metadata(["easy", "quick"], Str("Simple soup"), Str("Soup"), Str("30"),
                        ["boil water", "add salt"], ["water", "salt"])
  {
    TagsColumn();
    StepsColumn();
    IngredientsColumn();
  }

  /** The three phrasings of thirty minutes. */
  lemma SoupDurations()
    ensures Durations(Str("30")) == ["done in 30 minutes", "time taken 30 minutes", "30 minutes"]
  {
    assert ToString(Str("30")) == "30";
    assert "done in " + "30" + " minutes" == "done in 30 minutes";
    assert "time taken " + "30" + " minutes" == "time taken 30 minutes";
    assert "30" + " minutes" == "30 minutes";
  }

  /** The fragments of a row whose fields are known, group by group. */
  lemma LayoutOf(r: RawRecord, name: seq<string>, tags: seq<string>, steps: seq<string>,
                 ingredients: seq<string>, durations: seq<string>, description: seq<string>)
    requires Present(r.name) == name && Present(r.description) == description
    requires Durations(r.minutes) == durations
    requires var m := RecipeMetadata(r);
             m.tags == tags && m.steps == steps && m.ingredients == ingredients
    ensures Fragments(r) == name + tags + steps + ingredients + durations + description
  {
    FragmentsLayout(r);
  }

  /** A non-empty text is present as itself. */
  lemma PresentText(v: Value, s: string)
    requires v == Str(s) && |s| > 0
    ensures Present(v) == [s]
  {
  }

  /** The soup row's fragments, group by group. */
  lemma SoupLayout(r: RawRecord)
    requires IsSoup(r)
    ensures Fragments(r)
            == ["Soup"] + ["easy", "quick"] + ["boil water", "add salt"] + ["water", "salt"]
               + ["done in 30 minutes", "time taken 30 minutes", "30 minutes"] + ["Simple soup"]
  {
    SoupMetadata(r);
    SoupDurations();
    PresentText(r.name, "Soup");
    PresentText(r.description, "Simple soup");
    LayoutOf(r, ["Soup"], ["easy", "quick"], ["boil water", "add salt"], ["water", "salt"],
             ["done in 30 minutes", "time taken 30 minutes", "30 minutes"], ["Simple soup"]);
  }

  /** The soup row's six groups joined into one list. */
  lemma SoupGroupsJoined()
    ensures ["Soup"] + ["easy", "quick"] + ["boil water", "add salt"] + ["water", "salt"]
            + ["done in 30 minutes", "time taken 30 minutes", "30 minutes"] + ["Simple soup"]
            == ["Soup", "easy", "quick", "boil water", "add salt", "water", "salt",
                "done in 30 minutes", "time taken 30 minutes", "30 minutes", "Simple soup"]
  {
  }

  /** The soup row yields eleven fragments: the name, six list items, the
      three duration phrasings and the description. */
  lemma SoupFragments(r: RawRecord)
    requires IsSoup(r)
    ensures Fragments(r)
            == ["Soup", "easy", "quick", "boil water", "add salt", "water", "salt",
                "done in 30 minutes", "time taken 30 minutes", "30 minutes", "Simple soup"]
  {
    SoupLayout(r);
    SoupGroupsJoined();
  }

  /** When the embedding service returns one vector per fragment, the soup
      row is upserted as eleven entries, all with id "1" and the row's
      metadata. */
  lemma SoupUpsert(r: RawRecord, env: Env)
    requires IsSoup(r)
    requires env.embed(Fragments(r)).Ok?
    requires |env.embed(Fragments(r)).value| == |Fragments(r)|
    ensures var s := ImportRecord(r, env);
            && s.calls[1].Upsert?
            && |s.calls[1].vectors| == 11
            && forall i :: 0 <= i < 11 ==>
                 s.calls[1].vectors[i].id == Str("1")
                 && s.calls[1].vectors[i].metadata == RecipeMetadata(r)
  {
    SoupFragments(r);
    UpsertPerFragment(r, env);
  }
}

=== FILE: search.dfy ===
/** The search endpoint of pages/api/generate.js (lines 28-92): check the
    key, check the query, embed the query, ask the index for the five
    nearest recipes, and map every failure to a status and a body.

    The services are consulted through an `Env`; the handler's effect is
    the calls it issues and the one response it sends. */
module Search {
  import opened Wrappers
  import opened Js
  import opened Services
  import Recipes

  const ConfigMessage: string :=
    "OpenAI API key not configured, please follow instructions in README.md"

  const InvalidQueryMessage: string := "Please enter a valid query"

  const GenericMessage: string := "An error occurred during your request."

  /** How many nearest entries the index is asked for. */
  const TopK: nat := 5

  /** One entry the index returns: its id, its similarity score, and its
      stored metadata. */
  datatype Match = Match(id: string, score: real, metadata: Option<Recipes.Metadata>)

  /** What the index is asked. */
  datatype QueryRequest = QueryRequest(vector: Recipes.Vector, topK: nat, includeMetadata: bool)

  /** One request to a service. */
  datatype Call =
    | CreateEmbedding(model: string, input: seq<string>)
    | Init
    | Query(index: string, request: QueryRequest)

  /** How the services answer: the embedding service, whether starting
      the index client fails, and the index's answer to a query. */
  datatype Env = Env(
    embed: seq<string> -> Result<seq<Recipes.Vector>, UpstreamError>,
    initFault: Option<UpstreamError>,
    query: QueryRequest -> Result<seq<Match>, UpstreamError>)

  /** A JSON body: `{error: {message}}`, `{matches}`, or an upstream
      service's own body passed on unchanged. */
  datatype Body = ErrorBody(message: string) | MatchesBody(matches: seq<Match>) | Forwarded(data: string)

  datatype Response = Response(status: int, body: Body)

  /** The calls the handler issued, in order, and its response. */
  datatype Exchange = Exchange(calls: seq<Call>, response: Response)

  /** The characters `String.prototype.trim` removes: the ECMAScript
      WhiteSpace (tab, vertical tab, form feed, the space separators and
      the byte order mark) and LineTerminator characters. */
  predicate IsSpace(c: char) {
    || c == '\t' || c == '\U{B}' || c == '\U{C}' || c == ' ' || c == '\U{A0}' || c == '\U{FEFF}'
    || c == '\U{1680}' || ('\U{2000}' <= c <= '\U{200A}') || c == '\U{202F}' || c == '\U{205F}'
    || c == '\U{3000}'
    || c == '\n' || c == '\r' || c == '\U{2028}' || c == '\U{2029}'
  }

  /** Nothing but removable characters. */
  predicate Blank(s: string) {
    forall i :: 0 <= i < |s| ==> IsSpace(s[i])
  }

  /** `s` without its leading white space: a suffix of `s` that starts
      with a kept character, if any. */
  function TrimStart(s: string): (t: string)
    ensures |t| <= |s| && t == s[|s| - |t|..]
    ensures |t| > 0 ==> !IsSpace(t[0])
    decreases |s|
  {
    if |s| > 0 && IsSpace(s[0]) then TrimStart(s[1..]) else s
  }

  /** `s` without its trailing white space: a prefix of `s` that ends with
      a kept character, if any. */
  function TrimEnd(s: string): (t: string)
    ensures |t| <= |s| && t == s[..|t|]
    ensures |t| > 0 ==> !IsSpace(t[|t| - 1])
    decreases |s|
  {
    if |s| > 0 && IsSpace(s[|s| - 1]) then TrimEnd(s[..|s| - 1]) else s
  }

  /** `s.trim()`. */
  function Trim(s: string): (t: string)
    ensures |t| > 0 ==> !IsSpace(t[0]) && !IsSpace(t[|t| - 1])
  {
    TrimEnd(TrimStart(s))
  }

  /** What is dropped at the start is blank. */
  lemma {:induction false} TrimStartDrops(s: string)
    ensures Blank(s[..|s| - |TrimStart(s)|])
    decreases |s|
  {
    if |s| > 0 && IsSpace(s[0]) {
      TrimStartDrops(s[1..]);
      var k := |s| - |TrimStart(s)|;
      forall i | 0 <= i < k
        ensures IsSpace(s[i])
      {
        if i > 0 {
          assert s[i] == s[1..][..k - 1][i - 1];
        }
      }
    }
  }

  /** What is dropped at the end is blank. */
  lemma {:induction false} TrimEndDrops(s: string)
    ensures Blank(s[|TrimEnd(s)|..])
    decreases |s|
  {
    if |s| > 0 && IsSpace(s[|s| - 1]) {
      var u := s[..|s| - 1];
      TrimEndDrops(u);
      var k := |TrimEnd(s)|;
      forall i | k <= i < |s|
        ensures IsSpace(s[i])
      {
        if i < |s| - 1 {
          assert s[i] == u[k..][i - k];
        }
      }
    }
  }

  /** Trimming the start leaves nothing exactly when the string is blank. */
  lemma TrimStartEmpty(s: string)
    ensures |TrimStart(s)| == 0 <==> Blank(s)
  {
    var u := TrimStart(s);
    TrimStartDrops(s);
    if |u| == 0 {
      assert s[..|s|] == s;
    } else {
      assert u[0] == s[|s| - |u|];
    }
  }

  /** Trimming the end leaves nothing exactly when the string is blank. */
  lemma TrimEndEmpty(s: string)
    ensures |TrimEnd(s)| == 0 <==> Blank(s)
  {
    var t := TrimEnd(s);
    TrimEndDrops(s);
    if |t| == 0 {
      assert s[0..] == s;
    } else {
      assert t[|t| - 1] == s[|t| - 1];
    }
  }

  /** A string trims to nothing exactly when it is blank. */
  lemma TrimEmpty(s: string)
    ensures |Trim(s)| == 0 <==> Blank(s)
  {
    var u := TrimStart(s);
    TrimStartEmpty(s);
    TrimEndEmpty(u);
    if |u| > 0 {
      assert !IsSpace(u[0]);
    }
  }

  /** `req.body.query || ''`: a missing or empty query reads as "". */
  function QueryText(query: Value): (q: string)
    ensures q == "" <==> !Truthy(query)
    ensures Truthy(query) ==> q == query.text
  {
    if Truthy(query) then query.text else ""
  }

  /** The catch block: an error with a `response` passes its status and
      body on; any other error gets 500 and the generic message. */
  function ErrorResponse(e: UpstreamError): (r: Response)
    ensures r.body.Forwarded? <==> e.HttpError?
  {
    match e
    case HttpError(status, data) => Response(status, Forwarded(data))
    case NetworkError(_) => Response(500, ErrorBody(GenericMessage))
  }

  /** What the index is asked for a query vector. */
  function RequestFor(vector: Recipes.Vector): (request: QueryRequest) {
    QueryRequest(vector, TopK, true)
  }

  /** The calls and the response of the index part of the handler (lines
      60-77): start the index client, then query the index. */
  function Lookup(vector: Recipes.Vector, env: Env): (x: Exchange)
    ensures 1 <= |x.calls| <= 2 && x.calls[0] == Init
    ensures |x.calls| == 2 <==> env.initFault.None?
    ensures |x.calls| == 2 ==> x.calls[1] == Query(IndexName, RequestFor(vector))
  {
    if env.initFault.Some? then Exchange([Init], ErrorResponse(env.initFault.value))
    else
      var request := RequestFor(vector);
      var calls := [Init, Query(IndexName, request)];
      match env.query(request)
      case Err(e) => Exchange(calls, ErrorResponse(e))
      case Ok(matches) => Exchange(calls, Response(200, MatchesBody(matches)))
  }

  /** The try block and its catch (lines 48-91) for a query that passed
      the checks. An empty embedding list makes `data[0].embedding` throw a
      `TypeError`, which has no `response`. */
  function Answer(q: string, env: Env): (x: Exchange)
    ensures 1 <= |x.calls| <= 3
    ensures x.calls[0] == CreateEmbedding(EmbeddingModel, [q])
  {
    var embedCall := CreateEmbedding(EmbeddingModel, [q]);
    match env.embed([q])
    case Err(e) => Exchange([embedCall], ErrorResponse(e))
    case Ok(vectors) =>
      if |vectors| == 0 then Exchange([embedCall], Response(500, ErrorBody(GenericMessage)))
      else
        var rest := Lookup(vectors[0], env);
        Exchange([embedCall] + rest.calls, rest.response)
  }

  /** The handler: the key check, the query check, then the try block. */
  function Handle(apiKey: Value, query: Value, env: Env): (x: Exchange)
    ensures |x.calls| <= 3
  {
    if !Truthy(apiKey) then Exchange([], Response(500, ErrorBody(ConfigMessage)))
    else if |Trim(QueryText(query))| == 0 then Exchange([], Response(400, ErrorBody(InvalidQueryMessage)))
    else Answer(QueryText(query), env)
  }

  /** The key and the query are acceptable. */
  predicate Accepted(apiKey: Value, query: Value) {
    Truthy(apiKey) && !Blank(QueryText(query))
  }

  /** An acceptable request goes on to the try block; any other is
      answered without a call, 500 without a key and 400 otherwise. */
  lemma HandleChecks(apiKey: Value, query: Value, env: Env)
    ensures Accepted(apiKey, query) ==> Handle(apiKey, query, env) == Answer(QueryText(query), env)
    ensures !Truthy(apiKey) ==>
              Handle(apiKey, query, env) == Exchange([], Response(500, ErrorBody(ConfigMessage)))
    ensures Truthy(apiKey) && !Accepted(apiKey, query) ==>
              Handle(apiKey, query, env) == Exchange([], Response(400, ErrorBody(InvalidQueryMessage)))
  {
    TrimEmpty(QueryText(query));
  }

  /** The only error body the try block builds itself is 500 with the
      generic message, so it never answers with the configuration or the
      invalid-query message. */
  lemma AnswerMessages(q: string, env: Env)
    ensures var r := Answer(q, env).response;
            r.body.ErrorBody? ==> r == Response(500, ErrorBody(GenericMessage))
  {
  }

  /** Without a key the answer is 500 with the configuration message,
      whatever the query, and no service is called; with a key that
      response is never sent. */
  lemma HandleNoKey(apiKey: Value, query: Value, env: Env)
    ensures Handle(apiKey, query, env).response == Response(500, ErrorBody(ConfigMessage))
            <==> !Truthy(apiKey)
    ensures !Truthy(apiKey) ==> Handle(apiKey, query, env).calls == []
  {
    HandleChecks(apiKey, query, env);
    AnswerMessages(QueryText(query), env);
  }

  /** With a key, a missing, empty or blank query is answered 400 with
      the invalid-query message; no other request is. No service is called
      exactly when the key is missing or the query is blank. */
  lemma HandleInvalidQuery(apiKey: Value, query: Value, env: Env)
    ensures Handle(apiKey, query, env).response == Response(400, ErrorBody(InvalidQueryMessage))
            <==> Truthy(apiKey) && Blank(QueryText(query))
    ensures Handle(apiKey, query, env).calls == [] <==> !Accepted(apiKey, query)
  {
    HandleChecks(apiKey, query, env);
    AnswerMessages(QueryText(query), env);
  }

  /** The try block embeds the query on its own, and asks the index for
      the 5 entries nearest to the first vector returned, with their
      metadata. */
  lemma AnswerCalls(q: string, env: Env)
    ensures var x := Answer(q, env);
            forall i :: 0 <= i < |x.calls| && x.calls[i].Query? ==>
              x.calls[i] == Query(IndexName, QueryRequest(env.embed([q]).value[0], 5, true))
  {
  }

  /** An accepted query is embedded on its own, and the index is asked
      for the 5 entries nearest to the first vector returned, with their
      metadata. */
  lemma HandleCalls(apiKey: Value, query: Value, env: Env)
    requires Accepted(apiKey, query)
    ensures var x := Handle(apiKey, query, env);
            && |x.calls| > 0
            && x.calls[0] == CreateEmbedding(EmbeddingModel, [QueryText(query)])
            && forall i :: 0 <= i < |x.calls| && x.calls[i].Query? ==>
                 x.calls[i] == Query(IndexName, QueryRequest(env.embed([QueryText(query)]).value[0], 5, true))
  {
    HandleChecks(apiKey, query, env);
    AnswerCalls(QueryText(query), env);
  }

  /** Every service answers the query `q`. */
  predicate Served(q: string, env: Env) {
    && env.embed([q]).Ok? && |env.embed([q]).value| > 0
    && env.initFault.None?
    && env.query(RequestFor(env.embed([q]).value[0])).Ok?
  }

  /** The matches the index returns for `q` when every service answers. */
  function IndexMatches(q: string, env: Env): (matches: seq<Match>)
    requires Served(q, env)
  {
    env.query(RequestFor(env.embed([q]).value[0])).value
  }

  /** The try block sends matches exactly when every service answers, and
      then sends the index's matches unchanged, with 200. */
  lemma AnswerSucceeds(q: string, env: Env)
    ensures Answer(q, env).response.body.MatchesBody? <==> Served(q, env)
    ensures Served(q, env) ==> Answer(q, env).response == Response(200, MatchesBody(IndexMatches(q, env)))
  {
    if env.embed([q]).Ok? && |env.embed([q]).value| > 0 {
      var vector := env.embed([q]).value[0];
      assert Answer(q, env).response == Lookup(vector, env).response;
    }
  }

  /** The matches are sent exactly when the request is acceptable and
      every service answers; they are then the index's matches, with 200. */
  lemma HandleSucceeds(apiKey: Value, query: Value, env: Env)
    ensures Handle(apiKey, query, env).response.body.MatchesBody?
            <==> Accepted(apiKey, query) && Served(QueryText(query), env)
    ensures Accepted(apiKey, query) && Served(QueryText(query), env) ==>
              Handle(apiKey, query, env).response
              == Response(200, MatchesBody(IndexMatches(QueryText(query), env)))
  {
    HandleChecks(apiKey, query, env);
    AnswerSucceeds(QueryText(query), env);
  }

  /** If the index keeps its promise to return at most `topK` entries, a
      successful answer holds at most 5 matches. */
  lemma HandleAtMostFive(apiKey: Value, query: Value, env: Env)
    requires forall r :: env.query(r).Ok? ==> |env.query(r).value| <= r.topK
    ensures var body := Handle(apiKey, query, env).response.body;
            body.MatchesBody? ==> |body.matches| <= 5
  {
    HandleSucceeds(apiKey, query, env);
  }

  /** The error of the first service that fails for `q`, in call order;
      `None` when none fails (or the embedding list is empty, which is not
      a service error). */
  function FirstError(q: string, env: Env): (e: Option<UpstreamError>)
    ensures e.None? && env.embed([q]).Ok? && |env.embed([q]).value| > 0 ==> Served(q, env)
  {
    match env.embed([q])
    case Err(e) => Some(e)
    case Ok(vectors) =>
      if |vectors| == 0 then None
      else if env.initFault.Some? then env.initFault
      else
        match env.query(RequestFor(vectors[0]))
        case Err(e) => Some(e)
        case Ok(_) => None
  }

  /** In the try block, the first service error decides the response. */
  lemma AnswerFails(q: string, env: Env)
    ensures FirstError(q, env).Some? ==> Answer(q, env).response == ErrorResponse(FirstError(q, env).value)
  {
    if env.embed([q]).Ok? && |env.embed([q]).value| > 0 {
      var vector := env.embed([q]).value[0];
      assert Answer(q, env).response == Lookup(vector, env).response;
    }
  }

  /** An upstream error that carries a response is passed on with its own
      status and body; a forwarded body comes from nowhere else. */
  lemma HandleForwards(apiKey: Value, query: Value, env: Env)
    ensures Accepted(apiKey, query) && FirstError(QueryText(query), env).Some?
            && FirstError(QueryText(query), env).value.HttpError? ==>
              var e := FirstError(QueryText(query), env).value;
              Handle(apiKey, query, env).response == Response(e.status, Forwarded(e.data))
    ensures Handle(apiKey, query, env).response.body.Forwarded? ==>
              && Accepted(apiKey, query)
              && FirstError(QueryText(query), env)
                 == Some(HttpError(Handle(apiKey, query, env).response.status,
                                   Handle(apiKey, query, env).response.body.data))
  {
    HandleChecks(apiKey, query, env);
    AnswerFails(QueryText(query), env);
    AnswerSucceeds(QueryText(query), env);
  }

  /** 500 with the generic message answers an accepted query exactly when
      the first failing service raised an error without a response, or the
      embedding service returned no vector. */
  lemma HandleGenericError(apiKey: Value, query: Value, env: Env)
    ensures Handle(apiKey, query, env).response == Response(500, ErrorBody(GenericMessage))
            <==> && Accepted(apiKey, query)
                 && var q := QueryText(query);
                    || (FirstError(q, env).Some? && FirstError(q, env).value.NetworkError?)
                    || (env.embed([q]).Ok? && |env.embed([q]).value| == 0)
  {
    HandleChecks(apiKey, query, env);
    AnswerFails(QueryText(query), env);
    AnswerSucceeds(QueryText(query), env);
  }
}

=== FILE: services.dfy ===
/** What the two programs share about the outside services: the names
    they use and the shape of the errors those services raise. */
module Services {

  /** The embedding model both programs ask for. */
  const EmbeddingModel: string := "text-embedding-ada-002"

  /** The one vector index both programs use. */
  const IndexName: string := "recipes"

  /** An error raised by a service client. An HTTP failure carries the
      `response` (its status and its body); anything else (a refused
      connection, a client that throws before sending) carries none. */
  datatype UpstreamError =
    | HttpError(status: int, data: string)
    | NetworkError(message: string)
}

=== FILE: wrappers.dfy ===
/** An optional value, and the outcome of a call that can fail. */
module Wrappers {

  datatype Option<+T> = None | Some(value: T)

  datatype Result<+T, +E> = Ok(value: T) | Err(error: E)
}
